=== FILE: README.md ===
# Musou Kokaton: the frame logic in Dafny

`musou_kokaton.py` is a pygame arcade shooter. The player's bird dodges
descending enemies and the bombs they drop, and destroys them with beams. It
pays for special abilities out of its score: an EMP, hyper mode, a shield and a
gravity field. This project models the integer logic of one frame of the game
and of any number of frames, and proves properties of it. Drawing, sound,
timing and randomness are not part of the model.

The modules follow the game's components:

- `Geometry` covers the integer rectangle and the two tests applied to it.
  `check_bound` is the window test. pygame's `colliderect` is the collision
  test: two non-empty rectangles collide when their interiors meet.
- `Countdown` is the life counter shared by explosions, shields, gravity
  fields and hyper mode. Gravity uses its own threshold.
- `Player` is `Bird.update`: summing the arrow keys, the boosted speed, the
  all-or-nothing move, the facing and the hyper countdown.
- `Invaders` is `Enemy` with its descent state machine, and the drop test
  of `main`.
- `Projectiles` covers beams and bombs. A beam starts where the supplied
  `aim` flight puts it. A bomb starts centred below the enemy that drops it,
  with the radius and velocity of the supplied `drop` roll. Both move by a
  fixed integer step per frame and die when `check_bound` fails.
- `Effects` holds explosions, shields and gravity fields, and their updates.
- `SpreadFire` is `NeoBeam.gen_beams` as a list of angles, including
  Python's floor division and `range`, and its two exceptions.
- `World` is the state `main` keeps between frames, and its invariants.
- `Abilities` is the score ledger and the four ability gates.
- `Collisions` covers lines 436-473 of `main`. pygame's `spritecollide` and
  `groupcollide` are modelled over groups kept as sequences in insertion
  order.
- `Simulation` is one iteration of the `while` loop: events, spawning,
  dropping, collisions and updates. `Play` is a whole game.

The model follows the code where its behaviour differs from its comments or
from what a player would expect:

- Hyper mode needs a score strictly above 100. A score of exactly 100 is
  refused.
- A gravity field dies when its counter reaches 0 or below. This is one
  update earlier than explosions and shields, which die below 0.
- The gravity gate at lines 424-426 is checked once per event of any kind
  while RETURN is held, not once per key press. Several events in one frame
  can summon several fields.
- `gen_beams` can return more angles than requested. For 35 it returns 51.

## Model

| member | source | states |
|---|---|---|
| Geometry.CheckBound | musou_kokaton.py:13-24 | the horizontal verdict holds exactly when 0 <= left and right <= 1100; the vertical one exactly when 0 <= top and bottom <= 650 |
| Geometry.AxesIndependent | musou_kokaton.py:19-24 | the horizontal verdict depends only on left and width, the vertical one only on top and height |
| Geometry.InBoundsIffPixelsInField | musou_kokaton.py:19-24 | for a non-empty rectangle, check_bound returns (True, True) exactly when every pixel of the rectangle lies in the window |
| Geometry.OverlapsIffSharedPixel | musou_kokaton.py:454 | the collision test used by spritecollide and groupcollide holds exactly when the two rectangles share a pixel |
| Geometry.Shift | musou_kokaton.py:103 | move_ip keeps the size and moves the centre by the displacement |
| Geometry.ShiftBack | musou_kokaton.py:103-105 | moving back by the opposite displacement restores the rectangle exactly |
| Geometry.CenteredAt | musou_kokaton.py:72 | the result keeps the given width and height, and its centre, with halves rounded down as pygame does, is the given point |
| Countdown.Tick | musou_kokaton.py:210-213 | one update lowers the counter by one and kills the entity exactly when the lowered value crosses its threshold |
| Countdown.Lifespan | musou_kokaton.py:210-213 | after n updates an entity is alive exactly when n = 0 or life - n is still above the threshold, and then its counter is life - n |
| Countdown.GravityEndsOneUpdateEarlier | musou_kokaton.py:256-259 | with the same starting life L, an explosion or shield survives L updates and dies on update L + 1, while a gravity field dies on update L |
| Player.NetMove | musou_kokaton.py:99-102 | each component of sum_mv is "positive arrow minus negative arrow", so opposite arrows cancel |
| Player.NetMoveIsCompassDirection | musou_kokaton.py:59-68 | a non-zero sum_mv is always one of the eight keys of Bird.imgs |
| Player.HyperTick | musou_kokaton.py:109-113 | in hyper mode the counter drops by one and the mode reverts exactly when it goes below zero; normal mode leaves the bird unchanged |
| Player.Move | musou_kokaton.py:103-105 | the bird is moved in full when the result passes check_bound, and otherwise not at all |
| Player.Turn | musou_kokaton.py:106-107 | the facing becomes the net move when that is non-zero and is kept otherwise; it stays one of the eight directions |
| Player.Step | musou_kokaton.py:86-114 | the move is all-or-nothing at speed 10, or 20 with left shift; a bird inside the window stays inside; the facing follows a non-zero net move; the hyper countdown runs |
| Player.HyperDuration | musou_kokaton.py:109-113 | hyper mode entered with counter L lasts exactly L more updates, after which the counter stays at -1 |
| Player.NormalIsUntouched | musou_kokaton.py:109-113 | in normal mode the hyper counter is never touched |
| Invaders.Spawn | musou_kokaton.py:222-230 | a new enemy has the rolled image size, is centred at (x, 0), descends at 6 and keeps its rolled altitude and interval |
| Invaders.Update | musou_kokaton.py:232-241 | past its altitude an enemy stops with vy = 0 and does not move; before that its rectangle is moved down by exactly vy; the size never changes; the enemy invariant is preserved |
| Invaders.HaltIsPermanent | musou_kokaton.py:238-241 | a stopped enemy past its altitude never changes again |
| Invaders.DescentSchedule | musou_kokaton.py:226-241 | from centre y 0 at speed 6, the enemy stops at 6m with m = bound / 6 + 1, so bound < stop <= bound + 6 |
| Invaders.NeutralizedNeverDrops | musou_kokaton.py:432-433 | an enemy whose interval is infinite drops nothing on any frame after frame 0 |
| Projectiles.Fire | musou_kokaton.py:160-176 | a beam keeps the angle offset it was fired at |
| Projectiles.Volley | musou_kokaton.py:338 | there is one beam per angle, and the i-th beam carries the i-th angle |
| Projectiles.Drop | musou_kokaton.py:133-143 | a bomb is a 2r x 2r square centred below the enemy, half the enemy's height lower |
| Projectiles.MoveBeams | musou_kokaton.py:178-184 | the surviving beams are exactly the moved beams that pass check_bound |
| Projectiles.MoveBombs | musou_kokaton.py:146-153 | the surviving bombs are exactly the moved bombs that pass check_bound |
| Projectiles.MoveBeamsConcat | musou_kokaton.py:178-184 | beams are updated one by one: the survivors of a group made of two runs are those of each run, in group order, so copies and order are kept |
| Projectiles.MoveBombsConcat | musou_kokaton.py:146-153 | bombs are updated one by one: the survivors of a group made of two runs are those of each run, in group order |
| Effects.Raise | musou_kokaton.py:354-367 | a shield is 20 wide and twice the bird's height, centred one bird size ahead in the facing direction |
| Effects.AgeExplosions | musou_kokaton.py:205-213 | the surviving explosions are exactly the decremented ones whose counter is not below zero |
| Effects.AgeShields | musou_kokaton.py:369-375 | the surviving shields are exactly the decremented ones whose counter is not below zero |
| Effects.AgeGravities | musou_kokaton.py:256-259 | the surviving gravity fields are exactly the decremented ones whose counter is above zero |
| Effects.AgeExplosionsConcat | musou_kokaton.py:205-213 | explosions are aged one by one: the survivors of a group made of two runs are those of each run, in group order |
| Effects.AgeShieldsConcat | musou_kokaton.py:369-375 | shields are aged one by one: the survivors of a group made of two runs are those of each run, in group order |
| Effects.AgeGravitiesConcat | musou_kokaton.py:256-259 | gravity fields are aged one by one: the survivors of a group made of two runs are those of each run, in group order |
| Effects.ExplosionsAgeWithin | musou_kokaton.py:210-213 | after an update every explosion's counter lies in [0, hi) when all counters were at most hi |
| Effects.ShieldsAgeWithin | musou_kokaton.py:373-375 | after an update every shield's counter lies in [0, hi) when all counters were at most hi |
| Effects.GravitiesAgeWithin | musou_kokaton.py:257-259 | after an update every gravity field's counter lies in [1, hi) when all counters were at most hi |
| SpreadFire.FloorDiv | musou_kokaton.py:336 | Python's // rounds towards minus infinity: q * b <= a < q * b + b for b > 0 |
| SpreadFire.AscendingRange | musou_kokaton.py:337 | range with a positive step holds start + i * step for every index, all below stop, and no further value |
| SpreadFire.EmptyDescendingRange | musou_kokaton.py:337 | range with a negative step from below stop is empty |
| SpreadFire.AnglesOutcome | musou_kokaton.py:336-337 | gen_beams raises ZeroDivisionError exactly when num = 1, fails on a zero step exactly when num > 101, and returns no angle for num <= 0 |
| SpreadFire.StepRange | musou_kokaton.py:337 | range(-50, 51, step) holds 100 // step + 1 angles, -50 + i * step each, all within [-50, 50] |
| SpreadFire.SpreadShape | musou_kokaton.py:336-338 | for 2 <= num <= 101 the angles start at -50, rise by 100 // (num - 1), lie within [-50, 50] and are at least num in number |
| SpreadFire.FiveWaySpread | musou_kokaton.py:413-417 | the spread main fires has exactly the angles -50, -25, 0, 25 and 50 |
| SpreadFire.SpreadCanOvershoot | musou_kokaton.py:336-338 | asking for 35 beams gives 51 angles |
| World.Start | musou_kokaton.py:384-393 | the game starts settled with score 0, frame 0 and a normal bird centred at (900, 400) facing right |
| Abilities.Neutralize | musou_kokaton.py:310-311 | the EMP gives every enemy an infinite interval and changes nothing else about it |
| Abilities.FireEmp | musou_kokaton.py:301-316 | with a score of at least 20 the EMP costs 20, neutralises every enemy and removes every bomb; below 20 nothing changes |
| Abilities.EnterHyper | musou_kokaton.py:408-412 | with a score above 100, hyper mode costs 100 and sets the counter to 500; otherwise nothing changes |
| Abilities.RaiseShield | musou_kokaton.py:419-422 | with a score of at least 50 and no live shield, a shield with life 400 costs 50; otherwise nothing changes |
| Abilities.SummonGravity | musou_kokaton.py:424-426 | with a score of at least 200, a gravity field with life 400 costs 200; otherwise nothing changes |
| Abilities.GatesAreAtomic | musou_kokaton.py:400-426 | an ability changes the state exactly when its gate passes, and then lowers the score by exactly its price, so the score never goes negative |
| Collisions.SpriteCollide | musou_kokaton.py:454 | spritecollide with dokill removes exactly the colliding members and keeps the others, none of them touching |
| Collisions.SpriteCollideCounts | musou_kokaton.py:454 | every copy of a member lands in exactly one of the removed and the kept parts |
| Collisions.SpriteCollideConcat | musou_kokaton.py:454 | spritecollide works member by member: for a group made of two runs both parts are those of each run, in group order |
| Collisions.GroupCollide | musou_kokaton.py:436 | with both sides killed, a destroyed A touched some B and used up at least one; an A touching no B survives; a surviving A touches no B that is left; a B touching no A is left; a B that is gone touched a destroyed A |
| Collisions.GroupCollideSnoc | musou_kokaton.py:436 | taking the A's in order, an A is destroyed exactly when it touches a B that the earlier A's left, and the B's it touches are removed |
| Collisions.GroupCollideCounts | musou_kokaton.py:436 | every copy of an A is either destroyed or survives, never both and never lost |
| Collisions.GroupCollideLeftCounts | musou_kokaton.py:436 | the B's left are a sub-multiset of the B's given: copies are only removed |
| Collisions.GroupCollideLeftClear | musou_kokaton.py:436 | a B that is left touches no A at all, so with the clause above a B is left exactly when it touches no A |
| Collisions.GroupCollideSpends | musou_kokaton.py:436 | an A that did not survive touched a B that is now gone |
| Collisions.GroupCollideKeepsClear | musou_kokaton.py:436 | an A touching no B keeps every one of its copies |
| Collisions.Sweep | musou_kokaton.py:440 | groupcollide killing only A destroys exactly the A's touching some B |
| Collisions.SweepCounts | musou_kokaton.py:440 | every copy of an A is either destroyed or survives, never both and never lost |
| Collisions.SweepKeepsClear | musou_kokaton.py:440 | an A touching no B keeps every one of its copies |
| Collisions.SweepConcat | musou_kokaton.py:440 | the rule works member by member: for A's made of two runs both parts are those of each run, in order |
| Collisions.Guard | musou_kokaton.py:472 | with only B killed, no B that is left touches any A, every B left was given, and at most one first hit is reported per A |
| Collisions.GuardSpares | musou_kokaton.py:472 | a B that touches no A is left in place |
| Collisions.GuardFirstsHit | musou_kokaton.py:472-473 | every first hit reported, where the shield rule puts an explosion, touches one of the A's |
| Collisions.GuardReports | musou_kokaton.py:472-473 | at least one first hit is reported exactly when some A touches some B |
| Collisions.ShieldPass | musou_kokaton.py:471-473 | the shield rule adds only short explosions, at most one per bomb removed, keeps only bombs it was given, and keeps every bomb that no shield touches |
| Collisions.ShieldPassClears | musou_kokaton.py:471-473 | after at least one pass no shield touches a bomb |
| Collisions.ShieldLoopRedundant | musou_kokaton.py:471-473 | repeating the shield rule once per shield gives the same result as running it once |
| Collisions.StrikeEnemies | musou_kokaton.py:436-443 | each enemy removed by a beam or a gravity field adds exactly 10 and one long explosion; gravity fields persist |
| Collisions.StrikeEnemiesClears | musou_kokaton.py:436-443 | no surviving enemy touches a surviving beam or a gravity field; an enemy touching neither survives; a beam touching no enemy survives |
| Collisions.StrikeEnemiesBeamsLeft | musou_kokaton.py:436-438 | a beam survives the enemy rules exactly when it touches no enemy, so a beam that hits an enemy is used up |
| Collisions.StrikeEnemiesSpendsBeams | musou_kokaton.py:436-438 | an enemy gone although it touched no gravity field took a beam with it, and that beam is gone |
| Collisions.StrikeEnemiesCounts | musou_kokaton.py:436-443 | copies of enemies and beams are only removed, and an enemy touching no beam and no gravity field keeps every copy |
| Collisions.StrikeBombs | musou_kokaton.py:445-452 | each bomb removed by a gravity field or a beam adds exactly 1 and one explosion |
| Collisions.StrikeBombsClears | musou_kokaton.py:445-452 | no surviving bomb touches a surviving beam or a gravity field; a bomb touching neither survives; a beam touching no bomb survives |
| Collisions.StrikeBombsBeamsLeft | musou_kokaton.py:445-452 | a beam survives the bomb rules exactly when it touches no bomb that escaped the gravity fields |
| Collisions.StrikeBombsSpendsBeams | musou_kokaton.py:445-452 | a bomb gone although it touched no gravity field took a beam with it, and that beam is gone |
| Collisions.StrikeBombsCounts | musou_kokaton.py:445-452 | copies of bombs and beams are only removed, and a bomb touching no beam and no gravity field keeps every copy |
| Collisions.Land | musou_kokaton.py:454-469 | the bird loses exactly when it is normal and touches a bomb; a hyper bird turns each touching bomb into 1 point and a short explosion |
| Collisions.LandCounts | musou_kokaton.py:454-469 | every copy of a bomb touching the bird is removed and every copy of any other bomb is kept |
| Collisions.Protect | musou_kokaton.py:471-473 | the shield rule changes only bombs and explosions and adds at most one explosion per bomb it removes; it adds no score and keeps every bomb that no shield touches |
| Collisions.ProtectClears | musou_kokaton.py:471-473 | after the shield rule no shield touches a bomb |
| Collisions.ProtectBlasts | musou_kokaton.py:471-473 | the shield rule adds a short explosion exactly when some shield touches some bomb, and at most one per shield; so a single shield adds exactly one when it touches a bomb and none otherwise |
| Collisions.Resolve | musou_kokaton.py:436-473 | the collision rules change only the score and the enemy, beam, bomb and explosion groups; they only remove sprites and only add explosions |
| Collisions.ResolveScore | musou_kokaton.py:436-473 | each removed enemy is worth exactly 10 and each removed bomb at most 1; without a shield, and if the bird survives, exactly 1 |
| Collisions.DefeatNeedsContact | musou_kokaton.py:454-469 | only a normal bird touching a bomb loses; a hyper bird never loses, so the second check at 464-469 never fires |
| Collisions.UnshotBombDefeats | musou_kokaton.py:454-463 | a normal bird touching a bomb that no beam and no gravity field touched loses |
| Collisions.ResolveClears | musou_kokaton.py:436-473 | when the bird survives, no remaining pair that a rule handles is left touching, and untouched enemies remain |
| Collisions.UntouchedBeamSurvives | musou_kokaton.py:436-452 | a beam touching no enemy and no bomb is still there after the collision rules |
| Collisions.UntouchedBombSurvives | musou_kokaton.py:445-473 | a bomb touching no beam, no gravity field, not the bird and no shield is still there after the collision rules |
| Collisions.ResolveKeepsCore | musou_kokaton.py:436-473 | the collision rules preserve the frame invariant |
| Simulation.SpaceBeams | musou_kokaton.py:400-417 | a SPACE key-down fires two straight beams, plus the five-way spread with left shift held |
| Simulation.Press | musou_kokaton.py:400-422 | each key-down triggers its own rule only; the frame invariant holds, the score never rises and hyper mode is never left |
| Simulation.Gravitate | musou_kokaton.py:424-426 | with RETURN held the gravity gate is applied, otherwise nothing changes |
| Simulation.HandleEvent | musou_kokaton.py:397-426 | a quit event ends the loop; any other event keeps the frame counter, never raises the score and keeps the invariant |
| Simulation.HandleEvents | musou_kokaton.py:397-426 | the event loop stops exactly when a quit event is in the queue |
| Simulation.GravityPerEvent | musou_kokaton.py:424-426 | holding RETURN through n events that are not key presses summons n gravity fields and costs 200 n when the score covers it |
| Simulation.SpaceFires | musou_kokaton.py:400-417 | with RETURN not held, a SPACE key-down adds exactly 2 beams, or 7 with left shift held, after the existing ones, and changes nothing else |
| Simulation.Populate | musou_kokaton.py:429-430 | an enemy joins exactly on frames that are multiples of 200 |
| Simulation.Drops | musou_kokaton.py:432-434 | exactly the enemies whose drop is due release a bomb aimed at the bird |
| Simulation.DropsConcat | musou_kokaton.py:432-434 | bombs are dropped enemy by enemy: for enemies made of two runs the bombs are those of each run, in order, one per due enemy |
| Simulation.EmpSilences | musou_kokaton.py:432-434 | after an EMP no bomb is dropped on any later frame |
| Simulation.UpdateEnemies | musou_kokaton.py:479 | every enemy is updated in place and keeps its invariant |
| Simulation.StepKeepsBird | musou_kokaton.py:476 | the bird's update keeps it inside the window, facing a compass direction, with a valid hyper counter |
| Simulation.Advance | musou_kokaton.py:476-491 | the updates count the frame and keep the score; the bird takes its step, and each group is updated by its own rule (beams and bombs moved, enemies updated, explosions, gravity fields and shields aged), so only beams and bombs inside the window are left |
| Simulation.AdvanceSettles | musou_kokaton.py:476-491 | the updates establish the between-frames invariant |
| Simulation.Arm | musou_kokaton.py:432-434 | dropping adds at most one bomb per enemy and changes nothing else |
| Simulation.Conclude | musou_kokaton.py:436-491 | the game ends exactly when the collision rules report a defeat, keeping the state after them; otherwise the updates run on that state and the frame is settled; only a normal bird can lose |
| Simulation.BombEndsGame | musou_kokaton.py:454-463 | a normal bird touching a bomb that no beam and no gravity field touches ends the game |
| Simulation.Frame | musou_kokaton.py:395-492 | a frame quits exactly on a quit event; otherwise it handles the events, spawns, drops and concludes in that order, so a defeat ends the game; a hyper bird cannot lose; a running frame keeps the invariant and counts one frame |
| Simulation.PlayStaysSettled | musou_kokaton.py:395-492 | after any number of frames of a running game the invariant holds and the counter has advanced by the number of frames |

## Left out

- Drawing is not modelled. This covers images, rotation, the laplacian filter, `Bird.change_img`, `Score.update`, the explosion image flicker (line 211), and the draw calls with their order.
- Timing is not modelled: `time.sleep` (lines 308, 462, 467), `pg.display.update` and `clock.tick`. They are I/O and do not affect the state.
- The beam's angle, position and velocity (lines 168-175) come from floating-point trigonometry, and so does the bomb's heading (`calc_orientation`, line 141). They are parameters: `Rolls.aim` and `Rolls.drop`. A velocity is an integer displacement per frame. The division by zero in `calc_orientation` when both centres coincide is not modelled.
- Random choices are parameters. For enemies this is the image size, centre x, altitude and interval: `EnemyRoll`, whose ranges `ValidRoll` states as the requirement of `Spawn`, `Populate` and `Frame`. For bombs it is the radius and heading: `BombRoll`, whose radius is unconstrained (see `Projectiles.Drop` below). A bomb's colour is not modelled.
- `bomb.speed //= 2` in the EMP (line 315) is not modelled, because the bomb is killed on the next line.
- An infinite interval (`float('inf')`, line 311) is the `Never` interval. Python's `tmr % inf` equals `tmr`, so such an enemy would drop only on frame 0.
- Event kinds other than QUIT and KEYDOWN become `OtherEvent`. Keys the game ignores become `OtherKey`.
- The size of the bird image is an asset property. `World.Start` requires it to be at most 400 x 500, so that the bird fits the window at (900, 400).
- Projectiles.Fire: states only that a beam keeps its offset. Where the beam starts and how it flies is the supplied `aim`.
- Collisions.ResolveScore: states the exact score only when no shield is up. With a shield up it gives bounds instead, because bombs taken by a shield are worth nothing and the contract does not count them.
- Collisions.DefeatNeedsContact: this and `UnshotBombDefeats` state the defeat condition as two implications, not one equivalence. A bomb that touches both the bird and a beam is shot first only if that beam is still there. An enemy at line 436 or an earlier bomb at line 450 may already have taken it.
- Projectiles.Drop: the bomb radius in `BombRoll` is not constrained to the 10 to 50 of `randint(10, 50)` at line 134. No property here depends on it. A radius of 0 gives an empty rectangle, which collides with nothing.

=== FILE: abilities.dfy ===
/** The score ledger and the four abilities it pays for. Each ability checks
    its gate and then either pays and takes effect, or does nothing at all. */
module Abilities {
  import opened Player
  import opened Invaders
  import opened Effects
  import opened World

  /** Score each ability costs. */
  const EmpPrice: nat := 20
  const HyperPrice: nat := 100
  const ShieldPrice: nat := 50
  const GravityPrice: nat := 200

  /** The EMP key E, hyper mode on right shift, the shield on S and the
      gravity field while RETURN is held. */
  datatype Ability = Emp | HyperMode | Barrier | GravityWell

  function Price(a: Ability): nat {
    match a
    case Emp => EmpPrice
    case HyperMode => HyperPrice
    case Barrier => ShieldPrice
    case GravityWell => GravityPrice
  }

  /** The gates as main and EMP.activate state them: EMP needs at least 20,
      hyper mode strictly more than 100, a shield at least 50 and no live
      shield, a gravity field at least 200. */
  predicate Affordable(a: Ability, s: State) {
    match a
    case Emp => s.score >= EmpPrice
    case HyperMode => s.score > HyperPrice
    case Barrier => s.score >= ShieldPrice && |s.shields| == 0
    case GravityWell => s.score >= GravityPrice
  }

  /** The enemies after an EMP: each keeps everything but its drop interval,
      which becomes infinite. */
  function Neutralize(es: seq<Enemy>): (r: seq<Enemy>)
    ensures |r| == |es|
    ensures forall i :: 0 <= i < |es| ==> r[i] == es[i].(interval := Never)
    ensures forall e :: e in es && Sane(e) ==> Sane(e.(interval := Never))
  {
    seq(|es|, i requires 0 <= i < |es| => es[i].(interval := Never))
  }

  /** EMP.activate: with at least 20 points, pay 20, make every enemy unable
      to drop bombs and remove every bomb; otherwise nothing happens. */
  function FireEmp(s: State): (r: State)
    ensures s.score < EmpPrice ==> r == s
    ensures s.score >= EmpPrice ==> r.score == s.score - EmpPrice && r.bombs == []
    ensures s.score >= EmpPrice ==> |r.enemies| == |s.enemies|
    ensures s.score >= EmpPrice ==>
      forall i :: 0 <= i < |s.enemies| ==> r.enemies[i] == s.enemies[i].(interval := Never)
    ensures r == s.(score := r.score, enemies := r.enemies, bombs := r.bombs)
    ensures Core(s) ==> Core(r)
  {
    if s.score >= EmpPrice then
      s.(score := s.score - EmpPrice, enemies := Neutralize(s.enemies), bombs := [])
    else s
  }

  /** Right shift: with more than 100 points, pay 100 and enter hyper mode
      for 500 frames. */
  function EnterHyper(s: State): (r: State)
    ensures s.score <= HyperPrice ==> r == s
    ensures s.score > HyperPrice ==>
      r.score == s.score - HyperPrice && r.bird == s.bird.(mode := Hyper, hyperLife := HyperFrames)
    ensures r == s.(score := r.score, bird := r.bird)
    ensures Core(s) ==> Core(r)
  {
    if s.score > HyperPrice then
      s.(score := s.score - HyperPrice, bird := s.bird.(mode := Hyper, hyperLife := HyperFrames))
    else s
  }

  /** S: with at least 50 points and no live shield, pay 50 and raise a shield
      for 400 frames in front of the bird. */
  function RaiseShield(s: State): (r: State)
    ensures !(s.score >= ShieldPrice && |s.shields| == 0) ==> r == s
    ensures s.score >= ShieldPrice && |s.shields| == 0 ==>
      r.score == s.score - ShieldPrice && r.shields == [Raise(s.bird, ShieldLife)]
    ensures r == s.(score := r.score, shields := r.shields)
    ensures |r.shields| <= 1 || r.shields == s.shields
    ensures Core(s) ==> Core(r)
  {
    if s.score >= ShieldPrice && |s.shields| == 0 then
      s.(score := s.score - ShieldPrice, shields := s.shields + [Raise(s.bird, ShieldLife)])
    else s
  }

  /** RETURN held: with at least 200 points, pay 200 and add a gravity field
      for 400 frames. */
  function SummonGravity(s: State): (r: State)
    ensures s.score < GravityPrice ==> r == s
    ensures s.score >= GravityPrice ==>
      r.score == s.score - GravityPrice && r.gravities == s.gravities + [Gravity(GravityLife)]
    ensures r == s.(score := r.score, gravities := r.gravities)
    ensures Core(s) ==> Core(r)
  {
    if s.score >= GravityPrice then
      s.(score := s.score - GravityPrice, gravities := s.gravities + [Gravity(GravityLife)])
    else s
  }

  function Activate(a: Ability, s: State): State {
    match a
    case Emp => FireEmp(s)
    case HyperMode => EnterHyper(s)
    case Barrier => RaiseShield(s)
    case GravityWell => SummonGravity(s)
  }

  /** Every gate is atomic: a request changes the state exactly when its gate
      lets it through, and then the score drops by exactly the price, so the
      score can never be overdrawn. */
  lemma GatesAreAtomic(a: Ability, s: State)
    ensures Activate(a, s) != s <==> Affordable(a, s)
    ensures Affordable(a, s) ==> Activate(a, s).score + Price(a) == s.score
    ensures Core(s) ==> Core(Activate(a, s))
  {
    if Affordable(a, s) {
      assert Activate(a, s).score != s.score;
    }
  }
}

=== FILE: basics.dfy ===
/** Failure-carrying datatypes shared by the other modules. */
module Basics {

  /** A value that may be absent: a sprite that was killed, a missing result. */
  datatype Option<+T> = None | Some(value: T)

  /** A computation that either produced a value or raised an error. */
  datatype Result<+T, +E> = Ok(value: T) | Err(error: E)
}

=== FILE: collisions.dfy ===
/** The collision section of main: six rules applied in a fixed order, each
    on the groups left by the rules before it, with their score. */
module Collisions {
  import opened Geometry
  import opened Player
  import opened Invaders
  import opened Projectiles
  import opened Effects
  import opened World

  /** No member of ys collides with r. */
  predicate Clear<B(==,!new)>(r: Rect, ys: seq<B>, rectOf: B -> Rect) {
    forall y :: y in ys ==> !Overlaps(r, rectOf(y))
  }

  /** The result of spritecollide(sprite, group, True): the members hit, in
      group order, and the members left in the group. */
  datatype Split<T> = Split(hit: seq<T>, missed: seq<T>)

  /** spritecollide(sprite, group, True): every member colliding with r is
      taken out of the group; the rest stay, in order. */
  function SpriteCollide<T(==,!new)>(r: Rect, xs: seq<T>, rectOf: T -> Rect): (p: Split<T>)
    ensures |p.hit| + |p.missed| == |xs|
    ensures forall x :: x in p.hit <==> x in xs && Overlaps(r, rectOf(x))
    ensures forall x :: x in p.missed <==> x in xs && !Overlaps(r, rectOf(x))
    ensures Clear(r, p.missed, rectOf)
    ensures Clear(r, xs, rectOf) ==> p == Split([], xs)
  {
    if |xs| == 0 then Split([], [])
    else
      var p := SpriteCollide(r, xs[1..], rectOf);
      assert forall x :: x in xs <==> x == xs[0] || x in xs[1..];
      if Overlaps(r, rectOf(xs[0])) then Split([xs[0]] + p.hit, p.missed)
      else Split(p.hit, [xs[0]] + p.missed)
  }

  /** spritecollide neither loses nor copies a member: each copy in xs lands
      in exactly one of the two parts. */
  lemma {:induction false} SpriteCollideCounts<T(!new)>(r: Rect, xs: seq<T>, rectOf: T -> Rect)
    ensures var p := SpriteCollide(r, xs, rectOf);
      multiset(p.hit) + multiset(p.missed) == multiset(xs)
  {
    if |xs| > 0 {
      var q := SpriteCollide(r, xs[1..], rectOf);
      var p := SpriteCollide(r, xs, rectOf);
      assert (p.hit == [xs[0]] + q.hit && p.missed == q.missed) || (p.hit == q.hit && p.missed == [xs[0]] + q.missed);
      SpriteCollideCounts(r, xs[1..], rectOf);
      SplitCons(xs[0], q.hit, q.missed, xs[1..], xs, p.hit, p.missed);
    }
  }

  /** spritecollide works member by member: both parts of a group made of
      two runs are the parts of each run, in group order. */
  lemma {:induction false} SpriteCollideConcat<T(!new)>(r: Rect, xs: seq<T>, ys: seq<T>, rectOf: T -> Rect)
    ensures SpriteCollide(r, xs + ys, rectOf).hit == SpriteCollide(r, xs, rectOf).hit + SpriteCollide(r, ys, rectOf).hit
    ensures SpriteCollide(r, xs + ys, rectOf).missed == SpriteCollide(r, xs, rectOf).missed + SpriteCollide(r, ys, rectOf).missed
    decreases |xs|
  {
    if |xs| == 0 {
      assert xs + ys == ys;
    } else {
      var zs := xs + ys;
      assert zs[0] == xs[0] && zs[1..] == xs[1..] + ys;
      SpriteCollideConcat(r, xs[1..], ys, rectOf);
      var p := SpriteCollide(r, xs[1..], rectOf);
      var q := SpriteCollide(r, ys, rectOf);
      assert [xs[0]] + (p.hit + q.hit) == [xs[0]] + p.hit + q.hit;
      assert [xs[0]] + (p.missed + q.missed) == [xs[0]] + p.missed + q.missed;
    }
  }

  /** What groupcollide(as, bs, True, True) leaves: the members of as that
      were destroyed (in order), those that survive, and what is left of bs. */
  datatype Clash<A, B> = Clash(killed: seq<A>, kept: seq<A>, left: seq<B>)

  /** groupcollide(xs, ys, True, True): each member of xs in turn removes
      every member of ys it collides with, and is destroyed if there was any;
      a member of ys removed by an earlier member is no longer there for a
      later one. */
  function GroupCollide<A(==,!new), B(==,!new)>(xs: seq<A>, ys: seq<B>, ra: A -> Rect, rb: B -> Rect): (c: Clash<A, B>)
    ensures |c.killed| + |c.kept| == |xs|
    ensures |c.left| + |c.killed| <= |ys|
    ensures forall a :: a in c.killed ==> a in xs && !Clear(ra(a), ys, rb)
    ensures forall a :: a in c.kept ==> a in xs && Clear(ra(a), c.left, rb)
    ensures forall a :: a in xs && Clear(ra(a), ys, rb) ==> a in c.kept
    ensures forall y :: y in c.left ==> y in ys
    ensures forall y :: y in ys && (forall a :: a in xs ==> !Overlaps(ra(a), rb(y))) ==> y in c.left
    ensures forall y :: y in ys && y !in c.left ==> exists a :: a in c.killed && Overlaps(ra(a), rb(y))
    decreases |xs|
  {
    if |xs| == 0 then Clash([], [], ys)
    else
      var p := SpriteCollide(ra(xs[0]), ys, rb);
      var c := GroupCollide(xs[1..], p.missed, ra, rb);
      assert forall a :: a in xs <==> a == xs[0] || a in xs[1..];
      if |p.hit| > 0 then
        assert p.hit[0] in p.hit;
        Clash([xs[0]] + c.killed, c.kept, c.left)
      else
        Clash(c.killed, [xs[0]] + c.kept, c.left)
  }

  /** groupcollide read from the other end: adding one more member a at the
      end of xs runs spritecollide for a on whatever the earlier members left
      of ys, so a is destroyed exactly when it touches a member of ys that
      no earlier member took. */
  lemma {:induction false} GroupCollideSnoc<A(!new), B(!new)>(xs: seq<A>, a: A, ys: seq<B>, ra: A -> Rect, rb: B -> Rect)
    ensures var c := GroupCollide(xs, ys, ra, rb);
      var p := SpriteCollide(ra(a), c.left, rb);
      var d := GroupCollide(xs + [a], ys, ra, rb);
      && d.left == p.missed
      && d.killed == (if |p.hit| > 0 then c.killed + [a] else c.killed)
      && d.kept == (if |p.hit| > 0 then c.kept else c.kept + [a])
    decreases |xs|
  {
    var xa := xs + [a];
    if |xs| == 0 {
      assert xa == [a] && xa[1..] == [];
    } else {
      var p0 := SpriteCollide(ra(xs[0]), ys, rb);
      assert xa[0] == xs[0] && xa[1..] == xs[1..] + [a];
      var rest := GroupCollide(xs[1..], p0.missed, ra, rb);
      var restA := GroupCollide(xs[1..] + [a], p0.missed, ra, rb);
      GroupCollideSnoc(xs[1..], a, p0.missed, ra, rb);
      var q := SpriteCollide(ra(a), rest.left, rb);
      ConsSnoc(xs[0], rest.killed, a);
      ConsSnoc(xs[0], rest.kept, a);
      if |p0.hit| > 0 {
        assert GroupCollide(xs, ys, ra, rb) == Clash([xs[0]] + rest.killed, rest.kept, rest.left);
        assert GroupCollide(xa, ys, ra, rb) == Clash([xs[0]] + restA.killed, restA.kept, restA.left);
      } else {
        assert GroupCollide(xs, ys, ra, rb) == Clash(rest.killed, [xs[0]] + rest.kept, rest.left);
        assert GroupCollide(xa, ys, ra, rb) == Clash(restA.killed, [xs[0]] + restA.kept, restA.left);
      }
    }
  }

  /** groupcollide splits the copies in xs between the destroyed and the
      survivors. */
  lemma {:induction false} GroupCollideCounts<A(!new), B(!new)>(xs: seq<A>, ys: seq<B>, ra: A -> Rect, rb: B -> Rect)
    ensures var c := GroupCollide(xs, ys, ra, rb);
      multiset(c.killed) + multiset(c.kept) == multiset(xs)
    decreases |xs|
  {
    if |xs| > 0 {
      var p := SpriteCollide(ra(xs[0]), ys, rb);
      var c := GroupCollide(xs[1..], p.missed, ra, rb);
      var d := GroupCollide(xs, ys, ra, rb);
      assert (d.killed == [xs[0]] + c.killed && d.kept == c.kept) || (d.killed == c.killed && d.kept == [xs[0]] + c.kept);
      GroupCollideCounts(xs[1..], p.missed, ra, rb);
      SplitCons(xs[0], c.killed, c.kept, xs[1..], xs, d.killed, d.kept);
    }
  }

  /** groupcollide only ever removes members of ys. */
  lemma {:induction false} GroupCollideLeftCounts<A(!new), B(!new)>(xs: seq<A>, ys: seq<B>, ra: A -> Rect, rb: B -> Rect)
    ensures multiset(GroupCollide(xs, ys, ra, rb).left) <= multiset(ys)
    decreases |xs|
  {
    if |xs| > 0 {
      var p := SpriteCollide(ra(xs[0]), ys, rb);
      var c := GroupCollide(xs[1..], p.missed, ra, rb);
      assert GroupCollide(xs, ys, ra, rb).left == c.left;
      GroupCollideLeftCounts(xs[1..], p.missed, ra, rb);
      SpriteCollideCounts(ra(xs[0]), ys, rb);
    }
  }

  /** A member of ys that groupcollide leaves touches no member of xs. */
  lemma {:induction false} GroupCollideLeftClear<A(!new), B(!new)>(xs: seq<A>, ys: seq<B>, ra: A -> Rect, rb: B -> Rect, y: B)
    requires y in GroupCollide(xs, ys, ra, rb).left
    ensures forall a :: a in xs ==> !Overlaps(ra(a), rb(y))
    decreases |xs|
  {
    if |xs| > 0 {
      var p := SpriteCollide(ra(xs[0]), ys, rb);
      var c := GroupCollide(xs[1..], p.missed, ra, rb);
      assert GroupCollide(xs, ys, ra, rb).left == c.left;
      GroupCollideLeftClear(xs[1..], p.missed, ra, rb, y);
      assert forall a :: a in xs ==> a == xs[0] || a in xs[1..];
    }
  }

  /** A member of xs that did not survive groupcollide took a member of ys
      with it, which is no longer there. */
  lemma GroupCollideSpends<A(!new), B(!new)>(xs: seq<A>, ys: seq<B>, ra: A -> Rect, rb: B -> Rect, a: A)
    requires a in xs && a !in GroupCollide(xs, ys, ra, rb).kept
    ensures exists y :: y in ys && y !in GroupCollide(xs, ys, ra, rb).left && Overlaps(ra(a), rb(y))
  {
    var c := GroupCollide(xs, ys, ra, rb);
    GroupCollideCounts(xs, ys, ra, rb);
    assert a in c.killed by {
      assert multiset(xs)[a] > 0 && multiset(c.kept)[a] == 0;
      assert multiset(c.killed)[a] > 0;
    }
    var y :| y in ys && Overlaps(ra(a), rb(y));
    if y in c.left {
      GroupCollideLeftClear(xs, ys, ra, rb, y);
    }
  }

  /** A member of xs touching no member of ys keeps every copy. */
  lemma GroupCollideKeepsClear<A(!new), B(!new)>(xs: seq<A>, ys: seq<B>, ra: A -> Rect, rb: B -> Rect, a: A)
    requires Clear(ra(a), ys, rb)
    ensures multiset(GroupCollide(xs, ys, ra, rb).kept)[a] == multiset(xs)[a]
  {
    GroupCollideCounts(xs, ys, ra, rb);
    assert a !in GroupCollide(xs, ys, ra, rb).killed;
  }

  /** Putting one more copy in front of either part of a split of xs splits
      x followed by xs. */
  lemma SplitCons<T>(x: T, h: seq<T>, m: seq<T>, rest: seq<T>, xs: seq<T>, dh: seq<T>, dm: seq<T>)
    requires |xs| > 0 && x == xs[0] && rest == xs[1..] && multiset(h) + multiset(m) == multiset(rest)
    requires (dh == [x] + h && dm == m) || (dh == h && dm == [x] + m)
    ensures multiset(dh) + multiset(dm) == multiset(xs)
  {
    assert xs == [x] + rest;
  }

  /** Prepending and appending commute. */
  lemma ConsSnoc<T>(x: T, s: seq<T>, a: T)
    ensures [x] + (s + [a]) == [x] + s + [a]
  {
  }

  /** groupcollide(xs, ys, True, False): every member of xs colliding with any
      member of ys is destroyed; ys is untouched. */
  function Sweep<A(==,!new), B(==,!new)>(xs: seq<A>, ys: seq<B>, ra: A -> Rect, rb: B -> Rect): (c: Split<A>)
    ensures |c.hit| + |c.missed| == |xs|
    ensures forall a :: a in c.hit <==> a in xs && !Clear(ra(a), ys, rb)
    ensures forall a :: a in c.missed <==> a in xs && Clear(ra(a), ys, rb)
  {
    if |xs| == 0 then Split([], [])
    else
      var c := Sweep(xs[1..], ys, ra, rb);
      assert forall a :: a in xs <==> a == xs[0] || a in xs[1..];
      if exists y :: y in ys && Overlaps(ra(xs[0]), rb(y)) then Split([xs[0]] + c.hit, c.missed)
      else Split(c.hit, [xs[0]] + c.missed)
  }

  /** groupcollide(xs, ys, True, False) splits the copies in xs between the
      destroyed and the survivors. */
  lemma {:induction false} SweepCounts<A(!new), B(!new)>(xs: seq<A>, ys: seq<B>, ra: A -> Rect, rb: B -> Rect)
    ensures var c := Sweep(xs, ys, ra, rb);
      multiset(c.hit) + multiset(c.missed) == multiset(xs)
  {
    if |xs| > 0 {
      var c := Sweep(xs[1..], ys, ra, rb);
      var d := Sweep(xs, ys, ra, rb);
      assert (d.hit == [xs[0]] + c.hit && d.missed == c.missed) || (d.hit == c.hit && d.missed == [xs[0]] + c.missed);
      SweepCounts(xs[1..], ys, ra, rb);
      SplitCons(xs[0], c.hit, c.missed, xs[1..], xs, d.hit, d.missed);
    }
  }

  /** A member of xs touching no member of ys keeps every copy. */
  lemma SweepKeepsClear<A(!new), B(!new)>(xs: seq<A>, ys: seq<B>, ra: A -> Rect, rb: B -> Rect, a: A)
    requires Clear(ra(a), ys, rb)
    ensures multiset(Sweep(xs, ys, ra, rb).missed)[a] == multiset(xs)[a]
  {
    SweepCounts(xs, ys, ra, rb);
    assert a !in Sweep(xs, ys, ra, rb).hit;
  }

  /** groupcollide(xs, ys, True, False) works member by member: both parts
      for xs made of two runs are the parts of each run, in order. */
  lemma {:induction false} SweepConcat<A(!new), B(!new)>(xs: seq<A>, zs: seq<A>, ys: seq<B>, ra: A -> Rect, rb: B -> Rect)
    ensures Sweep(xs + zs, ys, ra, rb).hit == Sweep(xs, ys, ra, rb).hit + Sweep(zs, ys, ra, rb).hit
    ensures Sweep(xs + zs, ys, ra, rb).missed == Sweep(xs, ys, ra, rb).missed + Sweep(zs, ys, ra, rb).missed
    decreases |xs|
  {
    if |xs| == 0 {
      assert xs + zs == zs;
    } else {
      var ws := xs + zs;
      assert ws[0] == xs[0] && ws[1..] == xs[1..] + zs;
      SweepConcat(xs[1..], zs, ys, ra, rb);
      var p := Sweep(xs[1..], ys, ra, rb);
      var q := Sweep(zs, ys, ra, rb);
      assert [xs[0]] + (p.hit + q.hit) == [xs[0]] + p.hit + q.hit;
      assert [xs[0]] + (p.missed + q.missed) == [xs[0]] + p.missed + q.missed;
    }
  }

  /** What groupcollide(shields, bombs, False, True) yields: the first bomb
      each shield removed (where main puts an explosion) and the bombs left. */
  datatype Guarded<B> = Guarded(firsts: seq<B>, left: seq<B>)

  /** groupcollide(xs, ys, False, True): each member of xs in turn removes the
      members of ys it collides with, and survives. */
  function Guard<A, B(==,!new)>(xs: seq<A>, ys: seq<B>, ra: A -> Rect, rb: B -> Rect): (g: Guarded<B>)
    ensures |g.firsts| <= |xs| && |g.firsts| + |g.left| <= |ys|
    ensures forall y :: y in g.firsts ==> y in ys
    ensures forall y :: y in g.left ==> y in ys
    ensures forall i :: 0 <= i < |xs| ==> Clear(ra(xs[i]), g.left, rb)
    ensures (forall i :: 0 <= i < |xs| ==> Clear(ra(xs[i]), ys, rb)) ==> g == Guarded([], ys)
    decreases |xs|
  {
    if |xs| == 0 then Guarded([], ys)
    else
      var p := SpriteCollide(ra(xs[0]), ys, rb);
      var g := Guard(xs[1..], p.missed, ra, rb);
      var first := if |p.hit| > 0 then [p.hit[0]] else [];
      assert forall y :: y in first ==> y in p.hit;
      assert forall i :: 0 <= i < |xs| ==> Clear(ra(xs[i]), g.left, rb) by {
        ClearSubset(ra(xs[0]), p.missed, g.left, rb);
        forall i | 1 <= i < |xs|
          ensures Clear(ra(xs[i]), g.left, rb)
        {
          assert xs[i] == xs[1..][i - 1];
        }
      }
      assert (forall i :: 0 <= i < |xs| ==> Clear(ra(xs[i]), ys, rb)) ==> g == Guarded([], ys) by {
        if forall i :: 0 <= i < |xs| ==> Clear(ra(xs[i]), ys, rb) {
          assert p == Split([], ys);
          forall i | 0 <= i < |xs| - 1
            ensures Clear(ra(xs[1..][i]), ys, rb)
          {
            assert xs[1..][i] == xs[i + 1];
          }
        }
      }
      Guarded(first + g.firsts, g.left)
  }

  /** A member of ys that touches no member of xs is left in place. */
  lemma {:induction false} GuardSpares<A, B(!new)>(xs: seq<A>, ys: seq<B>, ra: A -> Rect, rb: B -> Rect, y: B)
    requires y in ys && forall i :: 0 <= i < |xs| ==> !Overlaps(ra(xs[i]), rb(y))
    ensures y in Guard(xs, ys, ra, rb).left
    decreases |xs|
  {
    if |xs| > 0 {
      var p := SpriteCollide(ra(xs[0]), ys, rb);
      assert y in p.missed;
      forall i | 0 <= i < |xs| - 1
        ensures !Overlaps(ra(xs[1..][i]), rb(y))
      {
        assert xs[1..][i] == xs[i + 1];
      }
      GuardSpares(xs[1..], p.missed, ra, rb, y);
    }
  }

  /** Each first hit reported touches one of the members of xs. */
  lemma {:induction false} GuardFirstsHit<A, B(!new)>(xs: seq<A>, ys: seq<B>, ra: A -> Rect, rb: B -> Rect, y: B)
    requires y in Guard(xs, ys, ra, rb).firsts
    ensures exists i :: 0 <= i < |xs| && Overlaps(ra(xs[i]), rb(y))
    decreases |xs|
  {
    var p := SpriteCollide(ra(xs[0]), ys, rb);
    var g := Guard(xs[1..], p.missed, ra, rb);
    if |p.hit| > 0 && y == p.hit[0] {
      assert p.hit[0] in p.hit;
      assert Overlaps(ra(xs[0]), rb(y));
    } else {
      assert y in g.firsts;
      GuardFirstsHit(xs[1..], p.missed, ra, rb, y);
      var i :| 0 <= i < |xs| - 1 && Overlaps(ra(xs[1..][i]), rb(y));
      assert xs[1..][i] == xs[i + 1];
    }
  }

  /** A first hit is reported exactly when some member of xs touches some
      member of ys. */
  lemma {:induction false} GuardReports<A, B(!new)>(xs: seq<A>, ys: seq<B>, ra: A -> Rect, rb: B -> Rect)
    ensures |Guard(xs, ys, ra, rb).firsts| > 0 <==> exists i :: 0 <= i < |xs| && !Clear(ra(xs[i]), ys, rb)
    decreases |xs|
  {
    var g := Guard(xs, ys, ra, rb);
    if |g.firsts| > 0 {
      assert g.firsts[0] in g.firsts;
      GuardFirstsHit(xs, ys, ra, rb, g.firsts[0]);
    } else if |xs| > 0 {
      var p := SpriteCollide(ra(xs[0]), ys, rb);
      var g1 := Guard(xs[1..], p.missed, ra, rb);
      assert |g.firsts| == (if |p.hit| > 0 then 1 else 0) + |g1.firsts|;
      assert Clear(ra(xs[0]), ys, rb);
      assert p.missed == ys;
      GuardReports(xs[1..], ys, ra, rb);
      forall i | 1 <= i < |xs|
        ensures Clear(ra(xs[i]), ys, rb)
      {
        assert xs[i] == xs[1..][i - 1];
      }
    }
  }

  function EnemyRect(e: Enemy): Rect { e.rect }
  function BeamRect(b: Beam): Rect { b.rect }
  function BombRect(b: Bomb): Rect { b.rect }
  function ShieldRect(s: Shield): Rect { s.rect }

  /** One Explosion(obj, life) per destroyed sprite, in order. */
  function Blasts<T>(xs: seq<T>, rectOf: T -> Rect, life: int): seq<Explosion> {
    seq(|xs|, i requires 0 <= i < |xs| => Blast(rectOf(xs[i]), life))
  }

  /** `after` is `before` with explosions of the given lives added at the end. */
  predicate Appends(before: seq<Explosion>, after: seq<Explosion>, lives: set<int>) {
    && |before| <= |after|
    && after[..|before|] == before
    && forall i :: |before| <= i < |after| ==> after[i].life in lives
  }

  /** exps.add(Explosion(x, life)) for every x in xs, in order. */
  function AddBlasts<T>(exps: seq<Explosion>, xs: seq<T>, rectOf: T -> Rect, life: int): (r: seq<Explosion>)
    ensures |r| == |exps| + |xs|
    ensures Appends(exps, r, {life})
  {
    var r := exps + Blasts(xs, rectOf, life);
    assert r[..|exps|] == exps;
    r
  }

  lemma AppendsTrans(a: seq<Explosion>, b: seq<Explosion>, c: seq<Explosion>, l1: set<int>, l2: set<int>)
    requires Appends(a, b, l1) && Appends(b, c, l2)
    ensures Appends(a, c, l1 + l2)
  {
    assert c[..|a|] == c[..|b|][..|a|];
    forall i | |a| <= i < |c|
      ensures c[i].life in l1 + l2
    {
      if i < |b| {
        assert c[i] == c[..|b|][i];
      }
    }
  }

  /** The bombs and explosions after the shield rule. */
  datatype Aftermath = Aftermath(bombs: seq<Bomb>, explosions: seq<Explosion>)

  /** Lines 471-473: `for shield in shields`, each pass running the whole
      shield-against-bomb groupcollide and adding a short explosion at the
      first bomb each shield took. */
  function ShieldPass(n: nat, shields: seq<Shield>, bombs: seq<Bomb>, exps: seq<Explosion>): (a: Aftermath)
    ensures |a.explosions| - |exps| <= |bombs| - |a.bombs|
    ensures forall b :: b in a.bombs ==> b in bombs
    ensures Appends(exps, a.explosions, {ShortBlast})
    ensures forall b :: b in bombs && (forall i :: 0 <= i < |shields| ==> !Overlaps(shields[i].rect, b.rect)) ==> b in a.bombs
    decreases n
  {
    if n == 0 then Aftermath(bombs, exps)
    else
      var g := Guard(shields, bombs, ShieldRect, BombRect);
      var exps1 := AddBlasts(exps, g.firsts, BombRect, ShortBlast);
      var a := ShieldPass(n - 1, shields, g.left, exps1);
      forall b | b in bombs && (forall i :: 0 <= i < |shields| ==> !Overlaps(shields[i].rect, b.rect))
        ensures b in g.left
      {
        GuardSpares(shields, bombs, ShieldRect, BombRect, b);
      }
      AppendsTrans(exps, exps1, a.explosions, {ShortBlast}, {ShortBlast});
      assert {ShortBlast} + {ShortBlast} == {ShortBlast};
      a
  }

  /** Removing members keeps a rectangle clear of the rest. */
  lemma ClearSubset<B(!new)>(r: Rect, xs: seq<B>, ys: seq<B>, rb: B -> Rect)
    requires Clear(r, xs, rb)
    requires forall y :: y in ys ==> y in xs
    ensures Clear(r, ys, rb)
  {
  }

  /** After at least one pass no shield touches a bomb. */
  lemma ShieldPassClears(n: nat, shields: seq<Shield>, bombs: seq<Bomb>, exps: seq<Explosion>)
    requires n > 0
    ensures forall i :: 0 <= i < |shields| ==> Clear(shields[i].rect, ShieldPass(n, shields, bombs, exps).bombs, BombRect)
  {
    var g := Guard(shields, bombs, ShieldRect, BombRect);
    var a := ShieldPass(n, shields, bombs, exps);
    forall i | 0 <= i < |shields|
      ensures Clear(shields[i].rect, a.bombs, BombRect)
    {
      ClearSubset(shields[i].rect, g.left, a.bombs, BombRect);
    }
  }

  /** The outer loop over the shields does its work on its first pass; the
      later passes change nothing. */
  lemma {:induction false} ShieldLoopRedundant(n: nat, shields: seq<Shield>, bombs: seq<Bomb>, exps: seq<Explosion>)
    requires n >= 1
    ensures ShieldPass(n, shields, bombs, exps) == ShieldPass(1, shields, bombs, exps)
    decreases n
  {
    if n > 1 {
      var g := Guard(shields, bombs, ShieldRect, BombRect);
      var exps1 := AddBlasts(exps, g.firsts, BombRect, ShortBlast);
      assert AddBlasts(exps1, [], BombRect, ShortBlast) == exps1;
      ShieldLoopRedundant(n - 1, shields, g.left, exps1);
      assert ShieldPass(n - 1, shields, g.left, exps1) == ShieldPass(1, shields, g.left, exps1);
      assert ShieldPass(1, shields, g.left, exps1) == ShieldPass(0, shields, g.left, exps1);
    }
  }

  /** Lines 436-443: enemies hit by a beam are destroyed together with the
      beams they hit; then enemies touching a gravity field are destroyed.
      Each is worth 10 points and leaves a long explosion. */
  function StrikeEnemies(s: State): (r: State)
    ensures r == s.(score := r.score, enemies := r.enemies, beams := r.beams, explosions := r.explosions)
    ensures |r.enemies| <= |s.enemies| && |r.beams| <= |s.beams|
    ensures r.score == s.score + 10 * (|s.enemies| - |r.enemies|)
    ensures |r.explosions| == |s.explosions| + (|s.enemies| - |r.enemies|)
    ensures Appends(s.explosions, r.explosions, {LongBlast})
    ensures forall b :: b in r.beams ==> b in s.beams
    ensures forall e :: e in r.enemies ==> e in s.enemies
  {
    var c := GroupCollide(s.enemies, s.beams, EnemyRect, BeamRect);
    var g := Sweep(c.kept, s.gravities, EnemyRect, GravityRect);
    var exps1 := AddBlasts(s.explosions, c.killed, EnemyRect, LongBlast);
    var exps := AddBlasts(exps1, g.hit, EnemyRect, LongBlast);
    AppendsTrans(s.explosions, exps1, exps, {LongBlast}, {LongBlast});
    assert {LongBlast} + {LongBlast} == {LongBlast};
    s.(score := s.score + 10 * |c.killed| + 10 * |g.hit|, enemies := g.missed, beams := c.left, explosions := exps)
  }

  /** After the enemy rules no surviving enemy touches a surviving beam or a
      gravity field, and an enemy that touched neither survives. */
  lemma StrikeEnemiesClears(s: State)
    ensures forall e :: e in StrikeEnemies(s).enemies ==>
      Clear(e.rect, StrikeEnemies(s).beams, BeamRect) && Clear(e.rect, s.gravities, GravityRect)
    ensures forall e :: e in s.enemies && Clear(e.rect, s.beams, BeamRect) && Clear(e.rect, s.gravities, GravityRect) ==>
      e in StrikeEnemies(s).enemies
    ensures forall b :: b in s.beams && (forall e :: e in s.enemies ==> !Overlaps(e.rect, b.rect)) ==>
      b in StrikeEnemies(s).beams
  {
    var c := GroupCollide(s.enemies, s.beams, EnemyRect, BeamRect);
    var g := Sweep(c.kept, s.gravities, EnemyRect, GravityRect);
    assert StrikeEnemies(s).enemies == g.missed && StrikeEnemies(s).beams == c.left;
    forall b | b in s.beams && (forall e :: e in s.enemies ==> !Overlaps(e.rect, b.rect))
      ensures b in c.left
    {
      assert forall e :: e in s.enemies ==> !Overlaps(EnemyRect(e), BeamRect(b));
    }
  }

  /** A beam survives the enemy rules exactly when it touches no enemy. */
  lemma StrikeEnemiesBeamsLeft(s: State, b: Beam)
    ensures b in StrikeEnemies(s).beams <==> b in s.beams && forall e :: e in s.enemies ==> !Overlaps(e.rect, b.rect)
  {
    var c := GroupCollide(s.enemies, s.beams, EnemyRect, BeamRect);
    assert StrikeEnemies(s).beams == c.left;
    if b in c.left {
      GroupCollideLeftClear(s.enemies, s.beams, EnemyRect, BeamRect, b);
    } else if b in s.beams {
      assert !forall e :: e in s.enemies ==> !Overlaps(EnemyRect(e), BeamRect(b));
    }
  }

  /** An enemy that is gone after the enemy rules although it touched no
      gravity field took a beam with it, which is gone too. */
  lemma StrikeEnemiesSpendsBeams(s: State, e: Enemy)
    requires e in s.enemies && e !in StrikeEnemies(s).enemies && Clear(e.rect, s.gravities, GravityRect)
    ensures exists b :: b in s.beams && b !in StrikeEnemies(s).beams && Overlaps(e.rect, b.rect)
  {
    var c := GroupCollide(s.enemies, s.beams, EnemyRect, BeamRect);
    var g := Sweep(c.kept, s.gravities, EnemyRect, GravityRect);
    assert StrikeEnemies(s).enemies == g.missed && StrikeEnemies(s).beams == c.left;
    assert e !in c.kept;
    GroupCollideSpends(s.enemies, s.beams, EnemyRect, BeamRect, e);
  }

  /** The enemy rules only remove copies of enemies and beams, and an enemy
      touching no beam and no gravity field keeps every copy. */
  lemma StrikeEnemiesCounts(s: State)
    ensures multiset(StrikeEnemies(s).enemies) <= multiset(s.enemies)
    ensures multiset(StrikeEnemies(s).beams) <= multiset(s.beams)
    ensures forall e: Enemy :: Clear(e.rect, s.beams, BeamRect) && Clear(e.rect, s.gravities, GravityRect) ==>
      multiset(StrikeEnemies(s).enemies)[e] == multiset(s.enemies)[e]
  {
    var c := GroupCollide(s.enemies, s.beams, EnemyRect, BeamRect);
    var g := Sweep(c.kept, s.gravities, EnemyRect, GravityRect);
    assert StrikeEnemies(s).enemies == g.missed && StrikeEnemies(s).beams == c.left;
    GroupCollideCounts(s.enemies, s.beams, EnemyRect, BeamRect);
    GroupCollideLeftCounts(s.enemies, s.beams, EnemyRect, BeamRect);
    SweepCounts(c.kept, s.gravities, EnemyRect, GravityRect);
    forall e: Enemy | Clear(e.rect, s.beams, BeamRect) && Clear(e.rect, s.gravities, GravityRect)
      ensures multiset(g.missed)[e] == multiset(s.enemies)[e]
    {
      GroupCollideKeepsClear(s.enemies, s.beams, EnemyRect, BeamRect, e);
      SweepKeepsClear(c.kept, s.gravities, EnemyRect, GravityRect, e);
    }
  }

  /** Lines 445-452: bombs touching a gravity field are destroyed with a long
      explosion; then bombs hit by a beam are destroyed together with the
      beams they hit, with a short explosion. Each bomb is worth 1 point. */
  function StrikeBombs(s: State): (r: State)
    ensures r == s.(score := r.score, bombs := r.bombs, beams := r.beams, explosions := r.explosions)
    ensures |r.bombs| <= |s.bombs| && |r.beams| <= |s.beams|
    ensures r.score == s.score + (|s.bombs| - |r.bombs|)
    ensures |r.explosions| == |s.explosions| + (|s.bombs| - |r.bombs|)
    ensures Appends(s.explosions, r.explosions, {LongBlast, ShortBlast})
    ensures forall b :: b in r.beams ==> b in s.beams
    ensures forall b :: b in r.bombs ==> b in s.bombs
  {
    var g := Sweep(s.bombs, s.gravities, BombRect, GravityRect);
    var c := GroupCollide(g.missed, s.beams, BombRect, BeamRect);
    var exps1 := AddBlasts(s.explosions, g.hit, BombRect, LongBlast);
    var exps := AddBlasts(exps1, c.killed, BombRect, ShortBlast);
    AppendsTrans(s.explosions, exps1, exps, {LongBlast}, {ShortBlast});
    s.(score := s.score + |g.hit| + |c.killed|, bombs := c.kept, beams := c.left, explosions := exps)
  }

  /** After the bomb rules no surviving bomb touches a surviving beam or a
      gravity field, and a bomb that touched neither survives. */
  lemma StrikeBombsClears(s: State)
    ensures forall b :: b in StrikeBombs(s).bombs ==>
      Clear(b.rect, StrikeBombs(s).beams, BeamRect) && Clear(b.rect, s.gravities, GravityRect)
    ensures forall b :: b in s.bombs && Clear(b.rect, s.beams, BeamRect) && Clear(b.rect, s.gravities, GravityRect) ==>
      b in StrikeBombs(s).bombs
    ensures forall b :: b in s.beams && (forall x :: x in s.bombs ==> !Overlaps(x.rect, b.rect)) ==>
      b in StrikeBombs(s).beams
  {
    var g := Sweep(s.bombs, s.gravities, BombRect, GravityRect);
    var c := GroupCollide(g.missed, s.beams, BombRect, BeamRect);
    assert StrikeBombs(s).bombs == c.kept && StrikeBombs(s).beams == c.left;
    forall b | b in s.beams && (forall x :: x in s.bombs ==> !Overlaps(x.rect, b.rect))
      ensures b in c.left
    {
      assert forall x :: x in g.missed ==> !Overlaps(BombRect(x), BeamRect(b));
    }
  }

  /** A beam survives the bomb rules exactly when it touches no bomb that
      escaped the gravity fields. */
  lemma StrikeBombsBeamsLeft(s: State, b: Beam)
    ensures b in StrikeBombs(s).beams <==>
      b in s.beams && forall x :: x in s.bombs && Clear(x.rect, s.gravities, GravityRect) ==> !Overlaps(x.rect, b.rect)
  {
    var g := Sweep(s.bombs, s.gravities, BombRect, GravityRect);
    var c := GroupCollide(g.missed, s.beams, BombRect, BeamRect);
    assert StrikeBombs(s).beams == c.left;
    if b in c.left {
      GroupCollideLeftClear(g.missed, s.beams, BombRect, BeamRect, b);
    } else if b in s.beams {
      assert !forall x :: x in g.missed ==> !Overlaps(BombRect(x), BeamRect(b));
    }
  }

  /** A bomb that is gone after the bomb rules although it touched no gravity
      field took a beam with it, which is gone too. */
  lemma StrikeBombsSpendsBeams(s: State, x: Bomb)
    requires x in s.bombs && x !in StrikeBombs(s).bombs && Clear(x.rect, s.gravities, GravityRect)
    ensures exists b :: b in s.beams && b !in StrikeBombs(s).beams && Overlaps(x.rect, b.rect)
  {
    var g := Sweep(s.bombs, s.gravities, BombRect, GravityRect);
    var c := GroupCollide(g.missed, s.beams, BombRect, BeamRect);
    assert StrikeBombs(s).bombs == c.kept && StrikeBombs(s).beams == c.left;
    assert x in g.missed;
    GroupCollideSpends(g.missed, s.beams, BombRect, BeamRect, x);
  }

  /** The bomb rules only remove copies of bombs and beams, and a bomb
      touching no beam and no gravity field keeps every copy. */
  lemma StrikeBombsCounts(s: State)
    ensures multiset(StrikeBombs(s).bombs) <= multiset(s.bombs)
    ensures multiset(StrikeBombs(s).beams) <= multiset(s.beams)
    ensures forall x: Bomb :: Clear(x.rect, s.beams, BeamRect) && Clear(x.rect, s.gravities, GravityRect) ==>
      multiset(StrikeBombs(s).bombs)[x] == multiset(s.bombs)[x]
  {
    var g := Sweep(s.bombs, s.gravities, BombRect, GravityRect);
    var c := GroupCollide(g.missed, s.beams, BombRect, BeamRect);
    assert StrikeBombs(s).bombs == c.kept && StrikeBombs(s).beams == c.left;
    SweepCounts(s.bombs, s.gravities, BombRect, GravityRect);
    GroupCollideCounts(g.missed, s.beams, BombRect, BeamRect);
    GroupCollideLeftCounts(g.missed, s.beams, BombRect, BeamRect);
    forall x: Bomb | Clear(x.rect, s.beams, BeamRect) && Clear(x.rect, s.gravities, GravityRect)
      ensures multiset(c.kept)[x] == multiset(s.bombs)[x]
    {
      SweepKeepsClear(s.bombs, s.gravities, BombRect, GravityRect, x);
      GroupCollideKeepsClear(g.missed, s.beams, BombRect, BeamRect, x);
    }
  }

  /** The state after the collision rules, and whether the bird was hit while
      not hyper, which ends the game. */
  datatype Resolution = Resolution(next: State, defeated: bool)

  /** Lines 454-469: every bomb touching the bird is removed. A hyper bird
      turns each into a short explosion and a point; a normal bird hit by any
      bomb loses. Then the bombs touching the bird are looked up once more,
      and a hit there loses as well. */
  function Land(s: State): (r: Resolution)
    ensures r.next == s.(score := r.next.score, bombs := r.next.bombs, explosions := r.next.explosions)
    ensures r.defeated <==> s.bird.mode == Normal && !Clear(s.bird.rect, s.bombs, BombRect)
    ensures forall b :: b in r.next.bombs <==> b in s.bombs && !Overlaps(s.bird.rect, b.rect)
    ensures |r.next.bombs| <= |s.bombs|
    ensures s.bird.mode == Normal ==> r.next.score == s.score && r.next.explosions == s.explosions
    ensures s.bird.mode == Hyper ==>
      && r.next.score == s.score + (|s.bombs| - |r.next.bombs|)
      && |r.next.explosions| == |s.explosions| + (|s.bombs| - |r.next.bombs|)
    ensures Appends(s.explosions, r.next.explosions, {ShortBlast})
  {
    var p := SpriteCollide(s.bird.rect, s.bombs, BombRect);
    if s.bird.mode == Normal && |p.hit| > 0 then
      assert p.hit[0] in p.hit;
      Resolution(s.(bombs := p.missed), true)
    else
      var exps := AddBlasts(s.explosions, p.hit, BombRect, ShortBlast);
      var t := s.(score := s.score + |p.hit|, bombs := p.missed, explosions := exps);
      var q := SpriteCollide(s.bird.rect, p.missed, BombRect);
      if |q.hit| > 0 then Resolution(t.(bombs := q.missed), true)
      else Resolution(t, false)
  }

  /** Every copy of a bomb touching the bird is removed and every copy of any
      other bomb is kept. */
  lemma LandCounts(s: State)
    ensures forall b: Bomb ::
      multiset(Land(s).next.bombs)[b] == if Overlaps(s.bird.rect, b.rect) then 0 else multiset(s.bombs)[b]
  {
    var p := SpriteCollide(s.bird.rect, s.bombs, BombRect);
    SpriteCollideCounts(s.bird.rect, s.bombs, BombRect);
    assert SpriteCollide(s.bird.rect, p.missed, BombRect) == Split([], p.missed);
    assert Land(s).next.bombs == p.missed;
    forall b: Bomb
      ensures multiset(p.missed)[b] == if Overlaps(s.bird.rect, b.rect) then 0 else multiset(s.bombs)[b]
    {
      if Overlaps(s.bird.rect, b.rect) {
        assert b !in p.missed;
      } else {
        assert b !in p.hit;
      }
    }
  }

  /** Lines 471-473: the shield rule, run once per shield. */
  function Protect(s: State): (r: State)
    ensures r == s.(bombs := r.bombs, explosions := r.explosions)
    ensures forall b :: b in r.bombs ==> b in s.bombs
    ensures |r.explosions| - |s.explosions| <= |s.bombs| - |r.bombs|
    ensures Appends(s.explosions, r.explosions, {ShortBlast})
    ensures |s.shields| == 0 ==> r == s
    ensures forall b :: b in s.bombs && (forall i :: 0 <= i < |s.shields| ==> !Overlaps(s.shields[i].rect, b.rect)) ==> b in r.bombs
  {
    var a := ShieldPass(|s.shields|, s.shields, s.bombs, s.explosions);
    s.(bombs := a.bombs, explosions := a.explosions)
  }

  /** Every shield is left clear of bombs. */
  lemma ProtectClears(s: State)
    ensures forall i :: 0 <= i < |s.shields| ==> Clear(s.shields[i].rect, Protect(s).bombs, BombRect)
  {
    if |s.shields| > 0 {
      ShieldPassClears(|s.shields|, s.shields, s.bombs, s.explosions);
    }
  }

  /** The shield rule adds a short explosion exactly when some shield touches
      some bomb, and at most one per shield. */
  lemma ProtectBlasts(s: State)
    ensures |Protect(s).explosions| > |s.explosions| <==>
      exists i :: 0 <= i < |s.shields| && !Clear(s.shields[i].rect, s.bombs, BombRect)
    ensures |Protect(s).explosions| <= |s.explosions| + |s.shields|
  {
    if |s.shields| > 0 {
      ShieldLoopRedundant(|s.shields|, s.shields, s.bombs, s.explosions);
      var g := Guard(s.shields, s.bombs, ShieldRect, BombRect);
      var exps1 := AddBlasts(s.explosions, g.firsts, BombRect, ShortBlast);
      assert Protect(s).explosions == exps1 by {
        assert ShieldPass(0, s.shields, g.left, exps1) == Aftermath(g.left, exps1);
      }
      GuardReports(s.shields, s.bombs, ShieldRect, BombRect);
      assert forall i :: 0 <= i < |s.shields| ==> ShieldRect(s.shields[i]) == s.shields[i].rect;
    }
  }

  /** Lines 436-473 in order. Only the score and the enemy, beam, bomb and
      explosion groups change; sprites are only ever removed from the first
      three, and explosions only added. */
  function Resolve(s: State): (r: Resolution)
    ensures r.next == s.(score := r.next.score, enemies := r.next.enemies, beams := r.next.beams,
                         bombs := r.next.bombs, explosions := r.next.explosions)
    ensures forall e :: e in r.next.enemies ==> e in s.enemies
    ensures forall b :: b in r.next.beams ==> b in s.beams
    ensures forall b :: b in r.next.bombs ==> b in s.bombs
    ensures |r.next.enemies| <= |s.enemies| && |r.next.bombs| <= |s.bombs|
    ensures Appends(s.explosions, r.next.explosions, {LongBlast, ShortBlast})
  {
    var s1 := StrikeEnemies(s);
    var s2 := StrikeBombs(s1);
    var l := Land(s2);
    AppendsTrans(s.explosions, s1.explosions, s2.explosions, {LongBlast}, {LongBlast, ShortBlast});
    AppendsTrans(s.explosions, s2.explosions, l.next.explosions, {LongBlast, ShortBlast}, {ShortBlast});
    if l.defeated then l
    else
      var p := Protect(l.next);
      AppendsTrans(s.explosions, l.next.explosions, p.explosions, {LongBlast, ShortBlast}, {ShortBlast});
      Resolution(p, false)
  }

  /** Each destroyed enemy is worth exactly 10 points and each destroyed bomb
      at most 1; when no shield is up and the bird survives, every destroyed
      bomb is worth exactly 1. */
  lemma {:induction false} ResolveScore(s: State)
    ensures s.score + 10 * (|s.enemies| - |Resolve(s).next.enemies|) <= Resolve(s).next.score
    ensures Resolve(s).next.score
      <= s.score + 10 * (|s.enemies| - |Resolve(s).next.enemies|) + (|s.bombs| - |Resolve(s).next.bombs|)
    ensures !Resolve(s).defeated && |s.shields| == 0 ==>
      Resolve(s).next.score == s.score + 10 * (|s.enemies| - |Resolve(s).next.enemies|) + (|s.bombs| - |Resolve(s).next.bombs|)
  {
    var s1 := StrikeEnemies(s);
    var s2 := StrikeBombs(s1);
    var l := Land(s2);
    if !l.defeated {
      var p := Protect(l.next);
      assert Resolve(s).next == p;
    }
  }

  /** Only a normal bird loses, and only by touching a bomb. A hyper bird
      never loses, so the second bomb check at lines 464-469 never ends the
      game. */
  lemma DefeatNeedsContact(s: State)
    ensures Resolve(s).defeated ==>
      s.bird.mode == Normal && exists b :: b in s.bombs && Overlaps(s.bird.rect, b.rect)
    ensures s.bird.mode == Hyper ==> !Resolve(s).defeated
  {
    var s1 := StrikeEnemies(s);
    var s2 := StrikeBombs(s1);
    var l := Land(s2);
    assert Resolve(s).defeated == l.defeated;
    if l.defeated {
      assert s2.bird == s.bird;
      var b :| b in s2.bombs && Overlaps(s.bird.rect, b.rect);
      assert b in s.bombs;
    }
  }

  /** A normal bird that touches a bomb no beam and no gravity field touched
      loses. */
  lemma UnshotBombDefeats(s: State, b: Bomb)
    requires s.bird.mode == Normal && b in s.bombs && Overlaps(s.bird.rect, b.rect)
    requires Clear(b.rect, s.beams, BeamRect) && Clear(b.rect, s.gravities, GravityRect)
    ensures Resolve(s).defeated
  {
    var s1 := StrikeEnemies(s);
    var s2 := StrikeBombs(s1);
    StrikeBombsClears(s1);
    ClearSubset(b.rect, s.beams, s1.beams, BeamRect);
    assert b in s2.bombs;
    assert Land(s2).defeated;
  }

  /** When the bird survives, nothing that a rule pairs is left touching: no
      enemy or bomb touches a beam or a gravity field, no bomb touches the
      bird or a shield. Enemies that touched no beam and no gravity field are
      all still there. */
  lemma ResolveClears(s: State)
    ensures forall e :: e in s.enemies && Clear(e.rect, s.beams, BeamRect) && Clear(e.rect, s.gravities, GravityRect) ==>
      e in Resolve(s).next.enemies
    ensures !Resolve(s).defeated ==>
      var n := Resolve(s).next;
      && (forall e :: e in n.enemies ==> Clear(e.rect, n.beams, BeamRect) && Clear(e.rect, n.gravities, GravityRect))
      && (forall b :: b in n.bombs ==> Clear(b.rect, n.beams, BeamRect) && Clear(b.rect, n.gravities, GravityRect))
      && Clear(n.bird.rect, n.bombs, BombRect)
      && (forall i :: 0 <= i < |n.shields| ==> Clear(n.shields[i].rect, n.bombs, BombRect))
  {
    var s1 := StrikeEnemies(s);
    var s2 := StrikeBombs(s1);
    var l := Land(s2);
    StrikeEnemiesClears(s);
    StrikeBombsClears(s1);
    if !l.defeated {
      var n := Protect(l.next);
      assert Resolve(s).next == n;
      ProtectClears(l.next);
      forall e | e in n.enemies
        ensures Clear(e.rect, n.beams, BeamRect)
      {
        ClearSubset(e.rect, s1.beams, n.beams, BeamRect);
      }
      forall b | b in n.bombs
        ensures Clear(b.rect, n.beams, BeamRect) && Clear(b.rect, n.gravities, GravityRect)
      {
        assert b in s2.bombs;
      }
      ClearSubset(s.bird.rect, l.next.bombs, n.bombs, BombRect);
    }
  }

  /** A beam that touches no enemy and no bomb survives the whole section. */
  lemma UntouchedBeamSurvives(s: State, b: Beam)
    requires b in s.beams
    requires forall e :: e in s.enemies ==> !Overlaps(e.rect, b.rect)
    requires forall x :: x in s.bombs ==> !Overlaps(x.rect, b.rect)
    ensures b in Resolve(s).next.beams
  {
    var s1 := StrikeEnemies(s);
    var s2 := StrikeBombs(s1);
    StrikeEnemiesClears(s);
    assert b in s1.beams;
    StrikeBombsClears(s1);
    assert b in s2.beams;
    assert Resolve(s).next.beams == s2.beams;
  }

  /** A bomb that touches no beam, no gravity field, not the bird and no
      shield survives the whole section. */
  lemma UntouchedBombSurvives(s: State, b: Bomb)
    requires b in s.bombs && Clear(b.rect, s.beams, BeamRect) && Clear(b.rect, s.gravities, GravityRect)
    requires !Overlaps(s.bird.rect, b.rect)
    requires forall i :: 0 <= i < |s.shields| ==> !Overlaps(s.shields[i].rect, b.rect)
    ensures b in Resolve(s).next.bombs
  {
    var s1 := StrikeEnemies(s);
    var s2 := StrikeBombs(s1);
    var l := Land(s2);
    StrikeBombsClears(s1);
    ClearSubset(b.rect, s.beams, s1.beams, BeamRect);
    assert b in s2.bombs;
    assert b in l.next.bombs;
    if !l.defeated {
      assert l.next.shields == s.shields;
      assert b in Protect(l.next).bombs;
    }
  }

  /** Adding long and short explosions keeps every life within [0, 100]. */
  lemma AppendsWithin(before: seq<Explosion>, after: seq<Explosion>)
    requires Appends(before, after, {LongBlast, ShortBlast})
    requires forall x :: x in before ==> 0 <= x.life <= LongBlast
    ensures forall x :: x in after ==> 0 <= x.life <= LongBlast
  {
    forall x | x in after
      ensures 0 <= x.life <= LongBlast
    {
      var i :| 0 <= i < |after| && after[i] == x;
      if i < |before| {
        assert after[i] == after[..|before|][i];
      }
    }
  }

  /** The collision rules keep the frame invariant. */
  lemma ResolveKeepsCore(s: State)
    ensures Core(s) ==> Core(Resolve(s).next)
  {
    if Core(s) {
      var n := Resolve(s).next;
      assert n.bird == s.bird && n.shields == s.shields && n.gravities == s.gravities;
      assert forall e :: e in n.enemies ==> Sane(e);
      AppendsWithin(s.explosions, n.explosions);
    }
  }
}

=== FILE: countdown.dfy ===
/** The life counter shared by explosions, shields, gravity fields and the
    bird's hyper mode: each update takes one off, and the entity ends when
    the decremented value crosses a threshold. */
module Countdown {
  import opened Basics

  /** Which threshold ends the entity: `life < 0` (explosion, shield, hyper
      mode) or `life <= 0` (gravity field). */
  datatype Expiry = BelowZero | AtZero

  /** A counter holding `life` is still alive under the given rule. */
  predicate Survives(life: int, rule: Expiry) {
    match rule
    case BelowZero => life >= 0
    case AtZero => life > 0
  }

  /** One update: decrement, then kill (None) when the threshold is crossed. */
  function Tick(life: int, rule: Expiry): (r: Option<int>)
    ensures r.Some? ==> r.value == life - 1 && Survives(r.value, rule)
    ensures r.None? ==> !Survives(life - 1, rule)
  {
    if Survives(life - 1, rule) then Some(life - 1) else None
  }

  /** n successive updates, or None once the entity has been killed. */
  function Ticks(life: int, rule: Expiry, n: nat): Option<int>
  {
    if n == 0 then Some(life)
    else
      match Tick(life, rule)
      case None => None
      case Some(l) => Ticks(l, rule, n - 1)
  }

  /** An entity created with `life` is still present after n updates exactly
      when n is zero or the counter, lowered by n, is still above the threshold. */
  lemma {:induction false} Lifespan(life: int, rule: Expiry, n: nat)
    ensures Ticks(life, rule, n).Some? <==> n == 0 || Survives(life - n, rule)
    ensures Ticks(life, rule, n).Some? ==> Ticks(life, rule, n).value == life - n
  {
    if n > 0 {
      match Tick(life, rule)
      case None =>
      case Some(l) =>
        Lifespan(l, rule, n - 1);
    }
  }

  /** With the same starting life L >= 1, an explosion or shield lasts L
      updates and disappears on update L + 1, while a gravity field already
      disappears on update L. */
  lemma GravityEndsOneUpdateEarlier(life: nat)
    requires life >= 1
    ensures Ticks(life, BelowZero, life).Some? && Ticks(life, BelowZero, life + 1).None?
    ensures Ticks(life, AtZero, life - 1).Some? && Ticks(life, AtZero, life).None?
  {
    Lifespan(life, BelowZero, life);
    Lifespan(life, BelowZero, life + 1);
    Lifespan(life, AtZero, life - 1);
    Lifespan(life, AtZero, life);
  }
}

=== FILE: effects.dfy ===
/** Entities that only live for a number of frames: explosions (visual only),
    the shield (a wall against bombs) and the gravity field (a window-sized
    area that destroys enemies and bombs). */
module Effects {
  import opened Geometry
  import opened Countdown
  import opened Player

  datatype Explosion = Explosion(center: Vec, life: int)

  datatype Shield = Shield(rect: Rect, life: int)

  /** A gravity field always covers the whole window, so only its life is kept. */
  datatype Gravity = Gravity(life: int)

  /** Lives of the explosions main creates: for enemies and for bombs taken by
      a gravity field, and for bombs taken by a beam, the bird or a shield. */
  const LongBlast: int := 100
  const ShortBlast: int := 50

  /** Lives main gives a new shield and a new gravity field. */
  const ShieldLife: int := 400
  const GravityLife: int := 400

  /** Thickness of the shield. */
  const ShieldThickness: nat := 20

  function GravityRect(g: Gravity): Rect { Field }

  /** Explosion(obj, life): centred on the destroyed sprite. */
  function Blast(r: Rect, life: int): Explosion {
    Explosion(r.Center(), life)
  }

  /** Shield(bird, life): a 20 x (2 * bird height) rectangle centred one bird
      size ahead of the bird in its facing direction. The image is rotated,
      but the rectangle is taken before the rotation and keeps this shape. */
  function Raise(bird: Bird, life: int): (s: Shield)
    ensures s.life == life
    ensures s.rect.width == ShieldThickness && s.rect.height == 2 * bird.rect.height
    ensures s.rect.Center() == Vec(bird.rect.CenterX() + bird.facing.x * bird.rect.width,
                                   bird.rect.CenterY() + bird.facing.y * bird.rect.height)
  {
    var w := bird.rect.width;
    var h := bird.rect.height;
    var c := Vec(bird.rect.CenterX() + bird.facing.x * w, bird.rect.CenterY() + bird.facing.y * h);
    Shield(CenteredAt(c, ShieldThickness, 2 * h), life)
  }

  function AgedExplosion(x: Explosion): Explosion { x.(life := x.life - 1) }

  function AgedShield(s: Shield): Shield { s.(life := s.life - 1) }

  function AgedGravity(g: Gravity): Gravity { g.(life := g.life - 1) }

  /** exps.update(): every counter drops by one; those below zero are killed. */
  function AgeExplosions(xs: seq<Explosion>): (r: seq<Explosion>)
    ensures |r| <= |xs|
    ensures forall x :: x in r ==> Survives(x.life, BelowZero)
    ensures forall x :: x in r ==> exists i :: 0 <= i < |xs| && x == AgedExplosion(xs[i])
    ensures forall i :: 0 <= i < |xs| && Survives(xs[i].life - 1, BelowZero) ==> AgedExplosion(xs[i]) in r
  {
    if |xs| == 0 then []
    else
      var rest := AgeExplosions(xs[1..]);
      assert forall i :: 1 <= i < |xs| ==> xs[i] == xs[1..][i - 1];
      match Tick(xs[0].life, BelowZero)
      case Some(_) => [AgedExplosion(xs[0])] + rest
      case None => rest
  }

  /** shields.update(): the same rule as explosions. */
  function AgeShields(xs: seq<Shield>): (r: seq<Shield>)
    ensures |r| <= |xs|
    ensures forall x :: x in r ==> Survives(x.life, BelowZero)
    ensures forall x :: x in r ==> exists i :: 0 <= i < |xs| && x == AgedShield(xs[i])
    ensures forall i :: 0 <= i < |xs| && Survives(xs[i].life - 1, BelowZero) ==> AgedShield(xs[i]) in r
  {
    if |xs| == 0 then []
    else
      var rest := AgeShields(xs[1..]);
      assert forall i :: 1 <= i < |xs| ==> xs[i] == xs[1..][i - 1];
      match Tick(xs[0].life, BelowZero)
      case Some(_) => [AgedShield(xs[0])] + rest
      case None => rest
  }

  /** gravitys.update(): the counter drops by one and the field is killed once
      it is zero or below. */
  function AgeGravities(xs: seq<Gravity>): (r: seq<Gravity>)
    ensures |r| <= |xs|
    ensures forall x :: x in r ==> Survives(x.life, AtZero)
    ensures forall x :: x in r ==> exists i :: 0 <= i < |xs| && x == AgedGravity(xs[i])
    ensures forall i :: 0 <= i < |xs| && Survives(xs[i].life - 1, AtZero) ==> AgedGravity(xs[i]) in r
  {
    if |xs| == 0 then []
    else
      var rest := AgeGravities(xs[1..]);
      assert forall i :: 1 <= i < |xs| ==> xs[i] == xs[1..][i - 1];
      match Tick(xs[0].life, AtZero)
      case Some(_) => [AgedGravity(xs[0])] + rest
      case None => rest
  }

  /** exps.update() works explosion by explosion: ageing two runs one after
      the other gives the survivors of each, in order. */
  lemma {:induction false} AgeExplosionsConcat(xs: seq<Explosion>, ys: seq<Explosion>)
    ensures AgeExplosions(xs + ys) == AgeExplosions(xs) + AgeExplosions(ys)
    decreases |xs|
  {
    if |xs| == 0 {
      assert xs + ys == ys;
    } else {
      assert (xs + ys)[0] == xs[0] && (xs + ys)[1..] == xs[1..] + ys;
      AgeExplosionsConcat(xs[1..], ys);
    }
  }

  /** shields.update() works shield by shield, in order. */
  lemma {:induction false} AgeShieldsConcat(xs: seq<Shield>, ys: seq<Shield>)
    ensures AgeShields(xs + ys) == AgeShields(xs) + AgeShields(ys)
    decreases |xs|
  {
    if |xs| == 0 {
      assert xs + ys == ys;
    } else {
      assert (xs + ys)[0] == xs[0] && (xs + ys)[1..] == xs[1..] + ys;
      AgeShieldsConcat(xs[1..], ys);
    }
  }

  /** gravitys.update() works field by field, in order. */
  lemma {:induction false} AgeGravitiesConcat(xs: seq<Gravity>, ys: seq<Gravity>)
    ensures AgeGravities(xs + ys) == AgeGravities(xs) + AgeGravities(ys)
    decreases |xs|
  {
    if |xs| == 0 {
      assert xs + ys == ys;
    } else {
      assert (xs + ys)[0] == xs[0] && (xs + ys)[1..] == xs[1..] + ys;
      AgeGravitiesConcat(xs[1..], ys);
    }
  }

  /** Ageing never raises a life, and the survivors' lives stay at or above
      the kill threshold. */
  lemma ExplosionsAgeWithin(xs: seq<Explosion>, hi: int)
    ensures (forall x :: x in xs ==> x.life <= hi) ==>
      forall x :: x in AgeExplosions(xs) ==> 0 <= x.life < hi
  {
    forall x | x in AgeExplosions(xs) && (forall y :: y in xs ==> y.life <= hi)
      ensures 0 <= x.life < hi
    {
      var i :| 0 <= i < |xs| && x == AgedExplosion(xs[i]);
      assert xs[i] in xs;
    }
  }

  lemma ShieldsAgeWithin(xs: seq<Shield>, hi: int)
    ensures (forall x :: x in xs ==> x.life <= hi) ==>
      forall x :: x in AgeShields(xs) ==> 0 <= x.life < hi
  {
    forall x | x in AgeShields(xs) && (forall y :: y in xs ==> y.life <= hi)
      ensures 0 <= x.life < hi
    {
      var i :| 0 <= i < |xs| && x == AgedShield(xs[i]);
      assert xs[i] in xs;
    }
  }

  lemma GravitiesAgeWithin(xs: seq<Gravity>, hi: int)
    ensures (forall x :: x in xs ==> x.life <= hi) ==>
      forall x :: x in AgeGravities(xs) ==> 1 <= x.life < hi
  {
    forall x | x in AgeGravities(xs) && (forall y :: y in xs ==> y.life <= hi)
      ensures 1 <= x.life < hi
    {
      var i :| 0 <= i < |xs| && x == AgedGravity(xs[i]);
      assert xs[i] in xs;
    }
  }
}

=== FILE: geometry.dfy ===
/** Integer rectangles on the 1100x650 playing field, and the two tests the
    game applies to them: the boundary test and the collision test. */
module Geometry {

  /** Size of the game window in pixels (WIDTH, HEIGHT). */
  const Width: nat := 1100
  const Height: nat := 650

  datatype Vec = Vec(x: int, y: int)

  function Add(a: Vec, b: Vec): Vec { Vec(a.x + b.x, a.y + b.y) }

  function Scale(k: int, v: Vec): Vec { Vec(k * v.x, k * v.y) }

  function Neg(v: Vec): Vec { Vec(-v.x, -v.y) }

  /** An axis-aligned rectangle as pygame keeps it: a corner and a size. */
  datatype Rect = Rect(left: int, top: int, width: nat, height: nat) {
    function Right(): int { left + width }
    function Bottom(): int { top + height }
    function CenterX(): int { left + width / 2 }
    function CenterY(): int { top + height / 2 }
    function Center(): Vec { Vec(CenterX(), CenterY()) }
  }

  /** The whole window, which is also the rectangle of a gravity field. */
  const Field: Rect := Rect(0, 0, Width, Height)

  /** Rect.move_ip: translate by d. */
  function Shift(r: Rect, d: Vec): (m: Rect)
    ensures m.width == r.width && m.height == r.height
    ensures m.Center() == Add(r.Center(), d)
  {
    r.(left := r.left + d.x, top := r.top + d.y)
  }

  /** Moving back by the opposite displacement restores the rectangle. */
  lemma ShiftBack(r: Rect, d: Vec)
    ensures Shift(Shift(r, d), Neg(d)) == r
  {
  }

  /** The rectangle of the given size whose centre is c (assigning Rect.center). */
  function CenteredAt(c: Vec, width: nat, height: nat): (r: Rect)
    ensures r.Center() == c && r.width == width && r.height == height
  {
    Rect(c.x - width / 2, c.y - height / 2, width, height)
  }

  /** The pair check_bound returns: horizontal fit and vertical fit. */
  datatype Fit = Fit(horizontal: bool, vertical: bool)

  /** check_bound: each axis reports whether the rectangle stays inside the window. */
  function CheckBound(r: Rect): (f: Fit)
    ensures f.horizontal <==> 0 <= r.left && r.Right() <= Width
    ensures f.vertical <==> 0 <= r.top && r.Bottom() <= Height
  {
    var horizontal := !(r.left < 0 || Width < r.Right());
    var vertical := !(r.top < 0 || Height < r.Bottom());
    Fit(horizontal, vertical)
  }

  /** `check_bound(rect) == (True, True)`. */
  predicate InBounds(r: Rect) {
    CheckBound(r) == Fit(true, true)
  }

  /** The horizontal verdict only looks at the horizontal extent and the
      vertical verdict only at the vertical extent. */
  lemma AxesIndependent(r: Rect, s: Rect)
    ensures r.left == s.left && r.width == s.width ==> CheckBound(r).horizontal == CheckBound(s).horizontal
    ensures r.top == s.top && r.height == s.height ==> CheckBound(r).vertical == CheckBound(s).vertical
  {
  }

  /** Pixel (x, y) belongs to r. */
  predicate Covers(r: Rect, x: int, y: int) {
    r.left <= x < r.Right() && r.top <= y < r.Bottom()
  }

  /** For a rectangle with at least one pixel, passing check_bound on both
      axes means every one of its pixels lies in the window. */
  lemma InBoundsIffPixelsInField(r: Rect)
    requires r.width > 0 && r.height > 0
    ensures InBounds(r) <==> forall x, y :: Covers(r, x, y) ==> Covers(Field, x, y)
  {
    if forall x, y :: Covers(r, x, y) ==> Covers(Field, x, y) {
      assert Covers(r, r.left, r.top);
      assert Covers(r, r.Right() - 1, r.Bottom() - 1);
    }
  }

  /** Rect.colliderect: the interiors meet; an empty rectangle meets nothing. */
  predicate Overlaps(a: Rect, b: Rect) {
    && a.width > 0 && a.height > 0 && b.width > 0 && b.height > 0
    && a.left < b.Right() && b.left < a.Right()
    && a.top < b.Bottom() && b.top < a.Bottom()
  }

  /** The collision test holds exactly when some pixel lies in both rectangles. */
  lemma OverlapsIffSharedPixel(a: Rect, b: Rect)
    ensures Overlaps(a, b) <==> exists x, y :: Covers(a, x, y) && Covers(b, x, y)
  {
    if Overlaps(a, b) {
      var x := if a.left < b.left then b.left else a.left;
      var y := if a.top < b.top then b.top else a.top;
      assert Covers(a, x, y) && Covers(b, x, y);
    }
  }
}

=== FILE: invaders.dfy ===
/** Enemies: they descend at a fixed speed until they pass a randomly chosen
    altitude, then stop for good and drop bombs on a fixed cadence. */
module Invaders {
  import opened Geometry

  /** "down" or "stop". */
  datatype Phase = Descending | Stopped

  /** A positive number of frames. */
  type Frames = n: int | 1 <= n witness 1

  /** The bomb-drop interval: a frame count, or infinity once an EMP has hit. */
  datatype DropInterval = Every(frames: Frames) | Never

  /** An enemy. Its horizontal speed is always zero, so only vy is kept. */
  datatype Enemy = Enemy(rect: Rect, vy: int, bound: int, phase: Phase, interval: DropInterval)

  const DescentSpeed: int := 6

  /** Range of the random stop altitude (50 .. HEIGHT // 2). */
  const MinBound: int := 50
  const MaxBound: int := Height / 2

  /** Range of the random drop interval. */
  const MinInterval: int := 50
  const MaxInterval: int := 300

  /** The random choices made when an enemy is created: the centre x, the
      size of the chosen image, the stop altitude and the drop interval. */
  datatype EnemyRoll = EnemyRoll(x: int, width: nat, height: nat, bound: int, interval: int)

  predicate ValidRoll(roll: EnemyRoll) {
    && 0 <= roll.x <= Width
    && MinBound <= roll.bound <= MaxBound
    && MinInterval <= roll.interval <= MaxInterval
  }

  predicate IntervalOk(i: DropInterval) {
    i.Every? ==> MinInterval <= i.frames <= MaxInterval
  }

  /** What holds of every enemy from creation on: a descending enemy moves at
      6 and is at most one step past its altitude; a stopped enemy has vy = 0
      and has passed its altitude by at most one step. */
  predicate Sane(e: Enemy) {
    && MinBound <= e.bound <= MaxBound
    && IntervalOk(e.interval)
    && 0 <= e.rect.CenterY() <= e.bound + DescentSpeed
    && (e.phase == Descending ==> e.vy == DescentSpeed)
    && (e.phase == Stopped ==> e.vy == 0 && e.bound < e.rect.CenterY())
  }

  /** Enemy.__init__ with the random choices supplied. */
  function Spawn(roll: EnemyRoll): (e: Enemy)
    requires ValidRoll(roll)
    ensures e.rect.Center() == Vec(roll.x, 0)
    ensures e.phase == Descending && e.vy == DescentSpeed && e.bound == roll.bound
    ensures e.rect.width == roll.width && e.rect.height == roll.height
    ensures e.interval == Every(roll.interval)
    ensures Sane(e)
  {
    Enemy(CenteredAt(Vec(roll.x, 0), roll.width, roll.height), DescentSpeed, roll.bound, Descending, Every(roll.interval))
  }

  /** Enemy.update: past the altitude, stop; then move by (0, vy). */
  function Update(e: Enemy): (r: Enemy)
    ensures e.rect.CenterY() > e.bound ==> r.phase == Stopped && r.vy == 0 && r.rect == e.rect
    ensures e.rect.CenterY() <= e.bound ==> r.phase == e.phase && r.vy == e.vy
    ensures e.rect.CenterY() <= e.bound ==> r.rect == Shift(e.rect, Vec(0, e.vy))
    ensures r.rect.width == e.rect.width && r.rect.height == e.rect.height
    ensures r.rect.CenterX() == e.rect.CenterX()
    ensures r.bound == e.bound && r.interval == e.interval
    ensures Sane(e) ==> Sane(r)
  {
    var e1 := if e.rect.CenterY() > e.bound then e.(vy := 0, phase := Stopped) else e;
    e1.(rect := Shift(e1.rect, Vec(0, e1.vy)))
  }

  /** n successive updates. */
  function Run(e: Enemy, n: nat): Enemy
    decreases n
  {
    if n == 0 then e else Run(Update(e), n - 1)
  }

  /** A stopped enemy never moves or changes again. */
  lemma {:induction false} HaltIsPermanent(e: Enemy, n: nat)
    requires e.phase == Stopped && e.vy == 0 && e.rect.CenterY() > e.bound
    ensures Run(e, n) == e
    decreases n
  {
    if n > 0 {
      assert Update(e) == e;
      HaltIsPermanent(e, n - 1);
    }
  }

  /** The descent schedule of a freshly spawned enemy (centre y 0, speed 6):
      with m = bound / 6 + 1, it is at 6n and still descending after n <= m
      updates, and from update m + 1 on it is stopped at 6m, the first
      multiple of 6 past its altitude, so bound < 6m <= bound + 6. */
  lemma {:induction false} DescentSchedule(e: Enemy, n: nat)
    requires e.phase == Descending && e.vy == DescentSpeed
    requires e.rect.CenterY() == 0 && e.bound >= 0
    ensures var m := e.bound / DescentSpeed + 1;
      && e.bound < DescentSpeed * m <= e.bound + DescentSpeed
      && (n <= m ==> Run(e, n).phase == Descending && Run(e, n).rect.CenterY() == DescentSpeed * n)
      && (n > m ==> Run(e, n).phase == Stopped && Run(e, n).vy == 0 && Run(e, n).rect.CenterY() == DescentSpeed * m)
  {
    var m := e.bound / DescentSpeed + 1;
    var k: nat := 0;
    var cur := e;
    while k < n && k < m
      invariant k <= n && k <= m
      invariant cur == Run(e, k)
      invariant cur.phase == Descending && cur.vy == DescentSpeed && cur.bound == e.bound
      invariant cur.rect.CenterY() == DescentSpeed * k
    {
      RunSplit(e, k);
      cur := Update(cur);
      k := k + 1;
    }
    if n > m {
      assert k == m;
      RunSplit(e, m);
      var stopped := Update(cur);
      HaltIsPermanent(stopped, n - m - 1);
      RunJoin(e, m + 1, n - m - 1);
    }
  }

  /** One more update after k. */
  lemma {:induction false} RunSplit(e: Enemy, k: nat)
    ensures Run(e, k + 1) == Update(Run(e, k))
    decreases k
  {
    if k > 0 {
      RunSplit(Update(e), k - 1);
    }
  }

  /** Updates compose. */
  lemma {:induction false} RunJoin(e: Enemy, a: nat, b: nat)
    ensures Run(e, a + b) == Run(Run(e, a), b)
    decreases a
  {
    if a > 0 {
      RunJoin(Update(e), a - 1, b);
    }
  }

  /** The drop test of main: a stopped enemy drops a bomb when the frame
      counter is a multiple of its interval. For an infinite interval Python
      computes `tmr % inf == tmr`, which is zero only on frame 0. */
  predicate DropDue(e: Enemy, tick: nat) {
    && e.phase == Stopped
    && match e.interval
       case Every(n) => tick % n == 0
       case Never => tick == 0
  }

  /** After an EMP, an enemy never drops again on any frame after the first. */
  lemma NeutralizedNeverDrops(e: Enemy, tick: nat)
    requires e.interval == Never && tick > 0
    ensures !DropDue(e, tick)
  {
  }
}

=== FILE: player.dfy ===
/** The player's sprite (the bird): key-driven movement with an
    all-or-nothing undo at the window edge, facing, and the hyper-mode
    countdown. */
module Player {
  import opened Geometry
  import opened Countdown

  /** The keys the game reads, either as held keys or as key-down events. */
  datatype Key =
    | ArrowUp | ArrowDown | ArrowLeft | ArrowRight
    | LeftShift | RightShift | Space | KeyE | KeyS | Return
    | OtherKey

  /** "normal", or "hyper" (bombs do not end the game). */
  datatype Mode = Normal | Hyper

  datatype Bird = Bird(rect: Rect, facing: Vec, mode: Mode, hyperLife: int)

  /** Bird.speed, and the speed while left shift is held. */
  const BaseSpeed: int := 10
  const BoostSpeed: int := 20

  /** Frames of hyper mode bought by one activation. */
  const HyperFrames: int := 500

  /** Bird.delta: the unit step of an arrow key; other keys do not move. */
  function Delta(k: Key): Vec {
    match k
    case ArrowUp => Vec(0, -1)
    case ArrowDown => Vec(0, 1)
    case ArrowLeft => Vec(-1, 0)
    case ArrowRight => Vec(1, 0)
    case _ => Vec(0, 0)
  }

  /** The keys of Bird.imgs: the eight compass directions the bird can face. */
  const Compass: set<Vec> := {
    Vec(1, 0), Vec(1, -1), Vec(0, -1), Vec(-1, -1),
    Vec(-1, 0), Vec(-1, 1), Vec(0, 1), Vec(1, 1)
  }

  function Indicator(b: bool): int { if b then 1 else 0 }

  /** One pass of update's loop body: a held key adds its delta to sum_mv. */
  function Accumulate(sum: Vec, k: Key, held: set<Key>): Vec {
    var d := Delta(k);
    Vec(sum.x + Indicator(k in held) * d.x, sum.y + Indicator(k in held) * d.y)
  }

  /** sum_mv, the loop of update over the four entries of Bird.delta (up,
      down, left, right): each axis is "positive key minus negative key", so
      opposite keys cancel and every component is -1, 0 or 1. */
  function NetMove(held: set<Key>): (mv: Vec)
    ensures mv.x == Indicator(ArrowRight in held) - Indicator(ArrowLeft in held)
    ensures mv.y == Indicator(ArrowDown in held) - Indicator(ArrowUp in held)
  {
    var mv := Accumulate(Vec(0, 0), ArrowUp, held);
    var mv := Accumulate(mv, ArrowDown, held);
    var mv := Accumulate(mv, ArrowLeft, held);
    Accumulate(mv, ArrowRight, held)
  }

  /** Every non-zero net move is one of the eight facings Bird.imgs has an image for. */
  lemma NetMoveIsCompassDirection(held: set<Key>)
    ensures NetMove(held) != Vec(0, 0) <==> NetMove(held) in Compass
  {
  }

  /** current_speed. */
  function Speed(held: set<Key>): int {
    if LeftShift in held then BoostSpeed else BaseSpeed
  }

  /** The hyper-mode part of update: in hyper mode the counter drops by one and
      the mode reverts once it is below zero; in normal mode nothing changes. */
  function HyperTick(b: Bird): (r: Bird)
    ensures r.rect == b.rect && r.facing == b.facing
    ensures b.mode == Normal ==> r == b
    ensures b.mode == Hyper ==> r.hyperLife == b.hyperLife - 1
    ensures b.mode == Hyper ==> (r.mode == Normal <==> b.hyperLife - 1 < 0)
  {
    if b.mode == Hyper then
      var life := b.hyperLife - 1;
      b.(hyperLife := life, mode := if Survives(life, BelowZero) then Hyper else Normal)
    else b
  }

  /** The move of update: shift by d, and shift back by -d when the result
      fails check_bound. */
  function Move(rect: Rect, d: Vec): (r: Rect)
    ensures (InBounds(Shift(rect, d)) && r == Shift(rect, d)) || (!InBounds(Shift(rect, d)) && r == rect)
  {
    var moved := Shift(rect, d);
    ShiftBack(rect, d);
    if InBounds(moved) then moved else Shift(moved, Neg(d))
  }

  /** The facing after a net move: a zero move keeps the old facing. */
  function Turn(facing: Vec, mv: Vec): (r: Vec)
    requires mv.x in {-1, 0, 1} && mv.y in {-1, 0, 1}
    ensures mv != Vec(0, 0) ==> r == mv
    ensures mv == Vec(0, 0) ==> r == facing
    ensures facing in Compass ==> r in Compass
  {
    if mv != Vec(0, 0) then mv else facing
  }

  /** Bird.update without the drawing: move by speed times sum_mv, move back
      if the result leaves the window, turn towards a non-zero move, then run
      the hyper countdown. */
  function Step(b: Bird, held: set<Key>): (r: Bird)
    ensures var d := Scale(Speed(held), NetMove(held));
      || (InBounds(Shift(b.rect, d)) && r.rect == Shift(b.rect, d))
      || (!InBounds(Shift(b.rect, d)) && r.rect == b.rect)
    ensures InBounds(b.rect) ==> InBounds(r.rect)
    ensures NetMove(held) != Vec(0, 0) ==> r.facing == NetMove(held)
    ensures NetMove(held) == Vec(0, 0) ==> r.facing == b.facing
    ensures b.facing in Compass ==> r.facing in Compass
    ensures (r.mode, r.hyperLife) == (HyperTick(b).mode, HyperTick(b).hyperLife)
  {
    var mv := NetMove(held);
    HyperTick(b.(rect := Move(b.rect, Scale(Speed(held), mv)), facing := Turn(b.facing, mv)))
  }

  /** n frames with the same keys held. */
  function Run(b: Bird, held: set<Key>, n: nat): Bird
    decreases n
  {
    if n == 0 then b else Run(Step(b, held), held, n - 1)
  }

  /** Hyper mode entered with counter L >= 0 lasts exactly L more updates:
      after n <= L updates the bird is still hyper with L - n left, and from
      update L + 1 on it is normal with the counter stuck at -1. */
  lemma {:induction false} HyperDuration(b: Bird, held: set<Key>, n: nat)
    requires b.mode == Hyper && b.hyperLife >= 0
    ensures Run(b, held, n).mode == Hyper <==> n <= b.hyperLife
    ensures n <= b.hyperLife + 1 ==> Run(b, held, n).hyperLife == b.hyperLife - n
    ensures n > b.hyperLife ==> Run(b, held, n).hyperLife == -1
    decreases n
  {
    if n > 0 {
      var b1 := Step(b, held);
      if b.hyperLife == 0 {
        NormalIsUntouched(b1, held, n - 1);
      } else {
        HyperDuration(b1, held, n - 1);
      }
    }
  }

  /** In normal mode the counter is never touched. */
  lemma {:induction false} NormalIsUntouched(b: Bird, held: set<Key>, n: nat)
    requires b.mode == Normal
    ensures Run(b, held, n).mode == Normal && Run(b, held, n).hyperLife == b.hyperLife
    decreases n
  {
    if n > 0 {
      NormalIsUntouched(Step(b, held), held, n - 1);
    }
  }
}

=== FILE: projectiles.dfy ===
/** Beams and bombs: sprites that move by a fixed displacement each frame and
    disappear as soon as they leave the window. */
module Projectiles {
  import opened Geometry
  import opened Player
  import opened Invaders

  /** Where a new sprite starts and how far it moves per frame. For beams and
      bombs this comes from floating-point trigonometry, which the model takes
      as given. */
  datatype Flight = Flight(rect: Rect, vel: Vec)

  /** A beam, remembering the angle offset it was fired at. */
  datatype Beam = Beam(offset: int, rect: Rect, vel: Vec)

  datatype Bomb = Bomb(rect: Rect, vel: Vec)

  /** The random and trigonometric parts of Bomb.__init__: the radius and
      the per-frame displacement towards the bird. */
  datatype BombRoll = BombRoll(radius: nat, vel: Vec)

  /** Beam(bird, angle0): `aim` stands for the trigonometry that places and
      orients the beam from the bird's facing plus the offset. */
  function Fire(bird: Bird, offset: int, aim: (Bird, int) -> Flight): (b: Beam)
    ensures b.offset == offset
  {
    var f := aim(bird, offset);
    Beam(offset, f.rect, f.vel)
  }

  /** `[Beam(bird, angle) for angle in angles]`: one beam per offset, in order. */
  function Volley(bird: Bird, offsets: seq<int>, aim: (Bird, int) -> Flight): (bs: seq<Beam>)
    ensures |bs| == |offsets|
    ensures forall i :: 0 <= i < |bs| ==> bs[i].offset == offsets[i]
  {
    seq(|offsets|, i requires 0 <= i < |offsets| => Fire(bird, offsets[i], aim))
  }

  /** Bomb(emy, bird): a 2r x 2r square centred under the enemy, half its
      height below the enemy's centre. */
  function Drop(e: Enemy, roll: BombRoll): (b: Bomb)
    ensures b.rect.width == 2 * roll.radius && b.rect.height == 2 * roll.radius
    ensures b.rect.CenterX() == e.rect.CenterX()
    ensures b.rect.CenterY() == e.rect.CenterY() + e.rect.height / 2
    ensures b.vel == roll.vel
  {
    var side := 2 * roll.radius;
    Bomb(CenteredAt(Vec(e.rect.CenterX(), e.rect.CenterY() + e.rect.height / 2), side, side), roll.vel)
  }

  function FlownBeam(b: Beam): Beam { b.(rect := Shift(b.rect, b.vel)) }

  function FlownBomb(b: Bomb): Bomb { b.(rect := Shift(b.rect, b.vel)) }

  /** beams.update(): every beam moves; those that leave the window are killed. */
  function MoveBeams(bs: seq<Beam>): (r: seq<Beam>)
    ensures |r| <= |bs|
    ensures forall b :: b in r ==> InBounds(b.rect)
    ensures forall b :: b in r ==> exists i :: 0 <= i < |bs| && b == FlownBeam(bs[i])
    ensures forall i :: 0 <= i < |bs| && InBounds(FlownBeam(bs[i]).rect) ==> FlownBeam(bs[i]) in r
  {
    if |bs| == 0 then []
    else
      var rest := MoveBeams(bs[1..]);
      var b := FlownBeam(bs[0]);
      assert forall i :: 1 <= i < |bs| ==> bs[i] == bs[1..][i - 1];
      if InBounds(b.rect) then [b] + rest else rest
  }

  /** bombs.update(): the same rule for bombs. */
  function MoveBombs(bs: seq<Bomb>): (r: seq<Bomb>)
    ensures |r| <= |bs|
    ensures forall b :: b in r ==> InBounds(b.rect)
    ensures forall b :: b in r ==> exists i :: 0 <= i < |bs| && b == FlownBomb(bs[i])
    ensures forall i :: 0 <= i < |bs| && InBounds(FlownBomb(bs[i]).rect) ==> FlownBomb(bs[i]) in r
  {
    if |bs| == 0 then []
    else
      var rest := MoveBombs(bs[1..]);
      var b := FlownBomb(bs[0]);
      assert forall i :: 1 <= i < |bs| ==> bs[i] == bs[1..][i - 1];
      if InBounds(b.rect) then [b] + rest else rest
  }

  /** beams.update() works beam by beam: moving two runs of beams one after the
      other gives the survivors of each, in order. */
  lemma {:induction false} MoveBeamsConcat(xs: seq<Beam>, ys: seq<Beam>)
    ensures MoveBeams(xs + ys) == MoveBeams(xs) + MoveBeams(ys)
    decreases |xs|
  {
    if |xs| == 0 {
      assert xs + ys == ys;
    } else {
      assert (xs + ys)[0] == xs[0] && (xs + ys)[1..] == xs[1..] + ys;
      MoveBeamsConcat(xs[1..], ys);
    }
  }

  /** bombs.update() works bomb by bomb, in order. */
  lemma {:induction false} MoveBombsConcat(xs: seq<Bomb>, ys: seq<Bomb>)
    ensures MoveBombs(xs + ys) == MoveBombs(xs) + MoveBombs(ys)
    decreases |xs|
  {
    if |xs| == 0 {
      assert xs + ys == ys;
    } else {
      assert (xs + ys)[0] == xs[0] && (xs + ys)[1..] == xs[1..] + ys;
      MoveBombsConcat(xs[1..], ys);
    }
  }
}

=== FILE: simulation.dfy ===
/** One iteration of main's loop, and any number of them: the events of the
    frame, the spawn and drop rules, the collision rules and the updates. */
module Simulation {
  import opened Basics
  import opened Geometry
  import opened Player
  import opened Invaders
  import opened Projectiles
  import opened Effects
  import opened SpreadFire
  import opened World
  import opened Abilities
  import opened Collisions

  /** The events main reacts to: the window closing, a key going down, and
      anything else (which still counts for the RETURN test). */
  datatype Event = Quit | KeyDown(key: Key) | OtherEvent

  /** What a frame reads: the keys held when it starts (key_lst) and the
      events queued since the last frame. */
  datatype Input = Input(held: set<Key>, events: seq<Event>)

  /** What a frame takes from randomness and trigonometry: the enemy that
      would be created, where a beam fired at an angle offset starts and how
      it flies, and the radius and velocity of the bomb an enemy drops at the
      bird. */
  datatype Rolls = Rolls(newcomer: EnemyRoll, aim: (Bird, int) -> Flight, drop: (Enemy, Bird) -> BombRoll)

  /** Frames between two enemy spawns. */
  const SpawnPeriod: nat := 200

  /** The beams a SPACE key-down fires: Beam(bird) at line 402, Beam(bird)
      again at line 407 and, with left shift held, the five-way spread of
      NeoBeam at lines 413-417. */
  function SpaceBeams(bird: Bird, held: set<Key>, aim: (Bird, int) -> Flight): (bs: seq<Beam>)
    ensures |bs| == if LeftShift in held then 7 else 2
    ensures bs[0] == bs[1] == Fire(bird, 0, aim)
    ensures LeftShift in held ==>
      forall i :: 2 <= i < 7 ==> bs[i] == Fire(bird, -50 + 25 * (i - 2), aim)
  {
    var single := [Fire(bird, 0, aim), Fire(bird, 0, aim)];
    if LeftShift in held then
      FiveWaySpread();
      single + Volley(bird, Angles(SpreadCount).value, aim)
    else single
  }

  /** The key-dependent part of the event loop (lines 400-422). Every test
      there looks at a single key, so at most one of them acts on a key-down
      (SPACE acts three times, all adding beams). */
  function Press(s: State, k: Key, held: set<Key>, aim: (Bird, int) -> Flight): (r: State)
    ensures k == Space ==> r == s.(beams := s.beams + SpaceBeams(s.bird, held, aim))
    ensures k == KeyE ==> r == Activate(Emp, s)
    ensures k == RightShift ==> r == Activate(HyperMode, s)
    ensures k == KeyS ==> r == Activate(Barrier, s)
    ensures k !in {Space, KeyE, RightShift, KeyS} ==> r == s
    ensures r.tick == s.tick && r.score <= s.score
    ensures (r.bird.rect, r.bird.facing) == (s.bird.rect, s.bird.facing)
    ensures s.bird.mode == Hyper ==> r.bird.mode == Hyper
    ensures Core(s) ==> Core(r)
  {
    match k
    case Space => s.(beams := s.beams + SpaceBeams(s.bird, held, aim))
    case KeyE => FireEmp(s)
    case RightShift => EnterHyper(s)
    case KeyS => RaiseShield(s)
    case _ => s
  }

  /** Lines 424-426: checked for every event, whatever its kind. */
  function Gravitate(s: State, held: set<Key>): (r: State)
    ensures Return !in held ==> r == s
    ensures Return in held ==> r == Activate(GravityWell, s)
    ensures r == s.(score := r.score, gravities := r.gravities) && r.score <= s.score
    ensures Core(s) ==> Core(r)
  {
    if Return in held then SummonGravity(s) else s
  }

  /** One pass of the event loop; None when the window is closed. */
  function HandleEvent(s: State, held: set<Key>, ev: Event, aim: (Bird, int) -> Flight): (r: Option<State>)
    ensures r.None? <==> ev == Quit
    ensures r.Some? ==> r.value.tick == s.tick && r.value.score <= s.score
    ensures r.Some? ==> (r.value.bird.rect, r.value.bird.facing) == (s.bird.rect, s.bird.facing)
    ensures r.Some? && s.bird.mode == Hyper ==> r.value.bird.mode == Hyper
    ensures r.Some? && Core(s) ==> Core(r.value)
  {
    match ev
    case Quit => None
    case KeyDown(k) => Some(Gravitate(Press(s, k, held, aim), held))
    case OtherEvent => Some(Gravitate(s, held))
  }

  /** The event loop: events are handled in order until one closes the window. */
  function HandleEvents(s: State, held: set<Key>, events: seq<Event>, aim: (Bird, int) -> Flight): (r: Option<State>)
    ensures r.None? <==> Quit in events
    ensures r.Some? ==> r.value.tick == s.tick && r.value.score <= s.score
    ensures r.Some? ==> (r.value.bird.rect, r.value.bird.facing) == (s.bird.rect, s.bird.facing)
    ensures r.Some? && s.bird.mode == Hyper ==> r.value.bird.mode == Hyper
    ensures r.Some? && Core(s) ==> Core(r.value)
    decreases |events|
  {
    if |events| == 0 then Some(s)
    else
      assert forall e :: e in events <==> e == events[0] || e in events[1..];
      match HandleEvent(s, held, events[0], aim)
      case None => None
      case Some(t) => HandleEvents(t, held, events[1..], aim)
  }

  /** Holding RETURN through n events that are not key presses (mouse moves,
      key releases and the like) summons n gravity fields when the score
      covers all of them: the gate is checked per event, not per key press. */
  lemma {:induction false} GravityPerEvent(s: State, held: set<Key>, n: nat, aim: (Bird, int) -> Flight)
    requires Return in held && s.score >= GravityPrice * n
    ensures var r := HandleEvents(s, held, seq(n, _ => OtherEvent), aim);
      && r.Some?
      && r.value.score == s.score - GravityPrice * n
      && |r.value.gravities| == |s.gravities| + n
    decreases n
  {
    var events := seq(n, _ => OtherEvent);
    if n > 0 {
      var t := HandleEvent(s, held, OtherEvent, aim).value;
      assert events[1..] == seq(n - 1, _ => OtherEvent);
      GravityPerEvent(t, held, n - 1, aim);
    }
  }

  /** A SPACE key-down fires two beams straight ahead, and seven with left
      shift held: the two plus the spread at -50, -25, 0, 25 and 50 degrees. */
  lemma SpaceFires(s: State, held: set<Key>, aim: (Bird, int) -> Flight)
    requires Return !in held
    ensures var r := HandleEvent(s, held, KeyDown(Space), aim);
      && r.Some?
      && r.value == s.(beams := r.value.beams)
      && r.value.beams[..|s.beams|] == s.beams
      && |r.value.beams| == |s.beams| + (if LeftShift in held then 7 else 2)
  {
    var r := HandleEvent(s, held, KeyDown(Space), aim);
    assert r.value.beams == s.beams + SpaceBeams(s.bird, held, aim);
  }

  /** Lines 429-430: every 200 frames, starting on frame 0, one enemy joins. */
  function Populate(s: State, roll: EnemyRoll): (r: State)
    requires ValidRoll(roll)
    ensures s.tick % SpawnPeriod == 0 ==> r == s.(enemies := s.enemies + [Spawn(roll)])
    ensures s.tick % SpawnPeriod != 0 ==> r == s
    ensures Core(s) ==> Core(r)
  {
    if s.tick % SpawnPeriod == 0 then s.(enemies := s.enemies + [Spawn(roll)]) else s
  }

  /** Lines 432-434: each enemy, in order, whose drop is due releases a bomb
      aimed at the bird. */
  function Drops(es: seq<Enemy>, tick: nat, bird: Bird, drop: (Enemy, Bird) -> BombRoll): (bs: seq<Bomb>)
    ensures |bs| <= |es|
    ensures forall b :: b in bs ==> exists e :: e in es && DropDue(e, tick) && b == Drop(e, drop(e, bird))
    ensures forall e :: e in es && DropDue(e, tick) ==> Drop(e, drop(e, bird)) in bs
  {
    if |es| == 0 then []
    else
      var rest := Drops(es[1..], tick, bird, drop);
      assert forall e :: e in es <==> e == es[0] || e in es[1..];
      if DropDue(es[0], tick) then [Drop(es[0], drop(es[0], bird))] + rest else rest
  }

  /** Bombs are dropped enemy by enemy: two runs of enemies one after the
      other drop the bombs of each, in order, one per due enemy. */
  lemma {:induction false} DropsConcat(xs: seq<Enemy>, ys: seq<Enemy>, tick: nat, bird: Bird, drop: (Enemy, Bird) -> BombRoll)
    ensures Drops(xs + ys, tick, bird, drop) == Drops(xs, tick, bird, drop) + Drops(ys, tick, bird, drop)
    decreases |xs|
  {
    if |xs| == 0 {
      assert xs + ys == ys;
    } else {
      var zs := xs + ys;
      assert zs[0] == xs[0] && zs[1..] == xs[1..] + ys;
      DropsConcat(xs[1..], ys, tick, bird, drop);
      var a := Drops(xs[1..], tick, bird, drop);
      var b := Drops(ys, tick, bird, drop);
      if DropDue(xs[0], tick) {
        var x := Drop(xs[0], drop(xs[0], bird));
        assert [x] + (a + b) == [x] + a + b;
      }
    }
  }

  /** After an EMP has neutralised every enemy, no bomb falls on any later frame. */
  lemma {:induction false} EmpSilences(es: seq<Enemy>, tick: nat, bird: Bird, drop: (Enemy, Bird) -> BombRoll)
    requires tick > 0
    requires forall e :: e in es ==> e.interval == Never
    ensures Drops(es, tick, bird, drop) == []
  {
    if Drops(es, tick, bird, drop) != [] {
      var b := Drops(es, tick, bird, drop)[0];
      assert b in Drops(es, tick, bird, drop);
      var e :| e in es && DropDue(e, tick) && b == Drop(e, drop(e, bird));
      NeutralizedNeverDrops(e, tick);
    }
  }

  /** emys.update(). */
  function UpdateEnemies(es: seq<Enemy>): (r: seq<Enemy>)
    ensures |r| == |es|
    ensures forall i :: 0 <= i < |es| ==> r[i] == Update(es[i])
    ensures (forall e :: e in es ==> Sane(e)) ==> forall e :: e in r ==> Sane(e)
  {
    seq(|es|, i requires 0 <= i < |es| => Update(es[i]))
  }

  /** bird.update keeps the bird's part of the frame invariant. */
  lemma StepKeepsBird(b: Bird, held: set<Key>)
    ensures b.facing in Compass && InBounds(b.rect) && HyperOk(b) ==>
      var r := Step(b, held);
      r.facing in Compass && InBounds(r.rect) && HyperOk(r)
  {
  }

  /** Lines 476-491 without the drawing: every group updates and tmr counts
      the frame. The result is settled: beams and bombs that left the window
      are gone. */
  function Advance(s: State, held: set<Key>): (r: State)
    ensures r.tick == s.tick + 1 && r.score == s.score
    ensures r.bird == Step(s.bird, held)
    ensures |r.enemies| == |s.enemies|
    ensures r.beams == MoveBeams(s.beams) && r.bombs == MoveBombs(s.bombs) && r.enemies == UpdateEnemies(s.enemies)
    ensures r.explosions == AgeExplosions(s.explosions) && r.gravities == AgeGravities(s.gravities)
    ensures r.shields == AgeShields(s.shields)
    ensures forall b :: b in r.beams ==> InBounds(b.rect)
    ensures forall b :: b in r.bombs ==> InBounds(b.rect)
  {
    State(
      Step(s.bird, held),
      s.score,
      MoveBeams(s.beams),
      MoveBombs(s.bombs),
      UpdateEnemies(s.enemies),
      AgeExplosions(s.explosions),
      AgeGravities(s.gravities),
      AgeShields(s.shields),
      s.tick + 1)
  }

  /** The updates turn the invariant that holds during a frame into the one
      that holds between frames. */
  lemma AdvanceSettles(s: State, held: set<Key>)
    ensures Core(s) ==> Settled(Advance(s, held))
  {
    if Core(s) {
      var r := Advance(s, held);
      StepKeepsBird(s.bird, held);
      ExplosionsAgeWithin(s.explosions, LongBlast);
      ShieldsAgeWithin(s.shields, ShieldLife);
      GravitiesAgeWithin(s.gravities, GravityLife);
      assert |r.shields| <= 1;
      assert forall e :: e in r.enemies ==> Sane(e);
    }
  }

  /** How a frame ends: the loop goes on, the window was closed, or a bomb
      hit the bird (the state at that moment is kept for the final score). */
  datatype Outcome = Running(next: State) | Quitted | GameOver(last: State)

  /** Lines 432-434 applied to the state: the due bombs join the group. */
  function Arm(s: State, drop: (Enemy, Bird) -> BombRoll): (r: State)
    ensures r == s.(bombs := r.bombs)
    ensures |s.bombs| <= |r.bombs| <= |s.bombs| + |s.enemies|
    ensures r.bombs[..|s.bombs|] == s.bombs
    ensures Core(s) ==> Core(r)
  {
    s.(bombs := s.bombs + Drops(s.enemies, s.tick, s.bird, drop))
  }

  /** Lines 436-491: the collision rules, and the updates when the bird
      survived them. */
  function Conclude(s: State, held: set<Key>): (o: Outcome)
    ensures !o.Quitted?
    ensures o.GameOver? <==> Resolve(s).defeated
    ensures o.GameOver? ==> o.last == Resolve(s).next
    ensures o.Running? ==> o.next == Advance(Resolve(s).next, held)
    ensures o.Running? ==> o.next.tick == s.tick + 1
    ensures o.GameOver? ==> s.bird.mode == Normal && o.last.bird == s.bird
    ensures Core(s) && o.Running? ==> Settled(o.next)
  {
    var res := Resolve(s);
    DefeatNeedsContact(s);
    if res.defeated then GameOver(res.next)
    else
      ResolveKeepsCore(s);
      AdvanceSettles(res.next, held);
      Running(Advance(res.next, held))
  }

  /** A normal bird touching a bomb that no beam and no gravity field
      touches ends the game. */
  lemma BombEndsGame(s: State, held: set<Key>, b: Bomb)
    requires s.bird.mode == Normal && b in s.bombs && Overlaps(s.bird.rect, b.rect)
    requires Clear(b.rect, s.beams, BeamRect) && Clear(b.rect, s.gravities, GravityRect)
    ensures Conclude(s, held).GameOver?
  {
    UnshotBombDefeats(s, b);
  }

  /** One iteration of main's while loop. */
  function Frame(s: State, input: Input, rolls: Rolls): (o: Outcome)
    requires ValidRoll(rolls.newcomer)
    ensures o.Quitted? <==> Quit in input.events
    ensures HandleEvents(s, input.held, input.events, rolls.aim).Some? ==>
      o == Conclude(Arm(Populate(HandleEvents(s, input.held, input.events, rolls.aim).value, rolls.newcomer), rolls.drop), input.held)
    ensures o.Running? ==> o.next.tick == s.tick + 1
    ensures o.GameOver? ==> o.last.bird.mode == Normal
    ensures s.bird.mode == Hyper ==> !o.GameOver?
    ensures Core(s) && o.Running? ==> Settled(o.next)
  {
    match HandleEvents(s, input.held, input.events, rolls.aim)
    case None => Quitted
    case Some(handled) => Conclude(Arm(Populate(handled, rolls.newcomer), rolls.drop), input.held)
  }

  /** Frames played in order until the window closes or the bird is hit. */
  function Play(s: State, frames: seq<(Input, Rolls)>): Outcome
    requires forall i :: 0 <= i < |frames| ==> ValidRoll(frames[i].1.newcomer)
    decreases |frames|
  {
    if |frames| == 0 then Running(s)
    else
      match Frame(s, frames[0].0, frames[0].1)
      case Running(n) => Play(n, frames[1..])
      case other => other
  }

  /** The frame invariant holds between any two frames of a game, from the
      start on. */
  lemma {:induction false} PlayStaysSettled(s: State, frames: seq<(Input, Rolls)>)
    requires Settled(s)
    requires forall i :: 0 <= i < |frames| ==> ValidRoll(frames[i].1.newcomer)
    ensures Play(s, frames).Running? ==> Settled(Play(s, frames).next)
    ensures Play(s, frames).Running? ==> Play(s, frames).next.tick == s.tick + |frames|
    decreases |frames|
  {
    if |frames| > 0 {
      var o := Frame(s, frames[0].0, frames[0].1);
      if o.Running? {
        var rest := frames[1..];
        forall i | 0 <= i < |rest|
          ensures ValidRoll(rest[i].1.newcomer)
        {
          assert rest[i] == frames[i + 1];
        }
        PlayStaysSettled(o.next, rest);
        assert Play(s, frames) == Play(o.next, rest);
      }
    }
  }
}

=== FILE: spread_fire.dfy ===
/** NeoBeam.gen_beams: the angle offsets of a spread shot, computed with
    Python's integer floor division and range(). */
module SpreadFire {
  import opened Basics

  /** The Python errors gen_beams can raise: `100 // 0` for one beam, and
      `range(..., 0)` once the step has rounded down to zero. */
  datatype SpreadError = ZeroDivision | ZeroStep

  /** The number of beams main asks for. */
  const SpreadCount: int := 5

  /** Python's `a // b`, rounding towards minus infinity. */
  function FloorDiv(a: int, b: int): (q: int)
    requires b != 0
    ensures b > 0 ==> b * q <= a < b * q + b
    ensures b < 0 ==> b * q >= a > b * q + b
  {
    if b > 0 then a / b else (-a) / (-b)
  }

  /** Python's `list(range(start, stop, step))`. */
  function Range(start: int, stop: int, step: int): seq<int>
    requires step != 0
    decreases if step > 0 then stop - start else start - stop
  {
    if (step > 0 && start < stop) || (step < 0 && start > stop) then [start] + Range(start + step, stop, step)
    else []
  }

  /** An ascending range holds start, start + step, ... up to the last value
      below stop, and no more. */
  lemma {:induction false} AscendingRange(start: int, stop: int, step: int)
    requires step > 0
    ensures forall i :: 0 <= i < |Range(start, stop, step)| ==> Range(start, stop, step)[i] == start + i * step < stop
    ensures start + |Range(start, stop, step)| * step >= stop
    decreases stop - start
  {
    if start < stop {
      var rest := Range(start + step, stop, step);
      AscendingRange(start + step, stop, step);
      assert Range(start, stop, step) == [start] + rest;
      forall i | 1 <= i < |Range(start, stop, step)|
        ensures Range(start, stop, step)[i] == start + i * step
      {
        assert Range(start, stop, step)[i] == rest[i - 1] == start + step + (i - 1) * step;
      }
      assert start + |Range(start, stop, step)| * step == start + step + |rest| * step;
    }
  }

  /** A descending range that starts below its stop is empty. */
  lemma EmptyDescendingRange(start: int, stop: int, step: int)
    requires step < 0 && start < stop
    ensures Range(start, stop, step) == []
  {
  }

  /** gen_beams, returning the angles: `step = 100 // (num - 1)` and
      `range(-50, 51, step)`. */
  function Angles(num: int): Result<seq<int>, SpreadError>
  {
    if num - 1 == 0 then Err(ZeroDivision)
    else
      var step := FloorDiv(100, num - 1);
      if step == 0 then Err(ZeroStep) else Ok(Range(-50, 51, step))
  }

  /** Which requests fail: one beam divides by zero, more than 101 beams makes
      the step zero, and zero or fewer beams yield no angle at all. */
  lemma AnglesOutcome(num: int)
    ensures Angles(num) == Err(ZeroDivision) <==> num == 1
    ensures Angles(num) == Err(ZeroStep) <==> num > 101
    ensures num <= 0 ==> Angles(num) == Ok([])
  {
    if num <= 0 {
      var step := FloorDiv(100, num - 1);
      assert step < 0;
      EmptyDescendingRange(-50, 51, step);
    } else if num > 101 {
      assert FloorDiv(100, num - 1) == 0;
    } else if num >= 2 {
      assert FloorDiv(100, num - 1) >= 1;
    }
  }

  /** Multiplying by a non-negative factor keeps the order. */
  lemma {:induction false} MulMonotone(x: int, y: int, b: nat)
    requires x <= y
    ensures x * b <= y * b
    decreases b
  {
    if b > 0 {
      MulMonotone(x, y, b - 1);
      assert x * b == x * (b - 1) + x;
      assert y * b == y * (b - 1) + y;
    }
  }

  /** q is the floor of a / b when q * b <= a < (q + 1) * b. */
  lemma FloorUnique(a: int, b: int, q: int)
    requires b > 0 && q * b <= a < q * b + b
    ensures a / b == q
  {
    var d := a / b;
    if d < q {
      MulMonotone(d + 1, q, b);
    } else if d > q {
      MulMonotone(q + 1, d, b);
    }
  }

  /** The quotient of Euclidean division is the floor for a positive divisor. */
  lemma DivBounds(a: int, b: int)
    requires b > 0
    ensures b * (a / b) <= a < b * (a / b) + b
  {
  }

  /** range(-50, 51, step) for a positive step: values -50 + i * step, all
      within [-50, 50], and 100 // step + 1 of them. */
  lemma {:induction false} StepRange(step: int)
    requires step >= 1
    ensures |Range(-50, 51, step)| == 100 / step + 1
    ensures forall i :: 0 <= i < |Range(-50, 51, step)| ==> Range(-50, 51, step)[i] == -50 + i * step
    ensures forall a :: a in Range(-50, 51, step) ==> -50 <= a <= 50
  {
    var xs := Range(-50, 51, step);
    AscendingRange(-50, 51, step);
    var n := |xs|;
    assert n >= 1;
    assert (n - 1) * step <= 100 by {
      assert xs[n - 1] == -50 + (n - 1) * step;
    }
    assert 100 < (n - 1) * step + step by {
      assert n * step == (n - 1) * step + step;
    }
    FloorUnique(100, step, n - 1);
    forall a | a in xs
      ensures -50 <= a <= 50
    {
      var i :| 0 <= i < n && xs[i] == a;
      MulMonotone(0, i, step);
    }
  }

  /** For 2 <= num <= 101 the angles start at -50, rise by
      step = 100 // (num - 1), stay within [-50, 50], and number
      100 // step + 1, which is never fewer than num. */
  lemma SpreadShape(num: int)
    requires 2 <= num <= 101
    ensures var step := 100 / (num - 1);
      && Angles(num).Ok?
      && |Angles(num).value| == 100 / step + 1 >= num
      && Angles(num).value[0] == -50
      && (forall i :: 0 <= i < |Angles(num).value| ==> Angles(num).value[i] == -50 + i * step)
      && (forall a :: a in Angles(num).value ==> -50 <= a <= 50)
  {
    var step := 100 / (num - 1);
    DivBounds(100, num - 1);
    assert 1 <= step;
    assert Angles(num) == Ok(Range(-50, 51, step));
    StepRange(step);
    var n := 100 / step + 1;
    DivBounds(100, step);
    assert step * n == step * (100 / step) + step;
    if n < num {
      MulMonotone(n, num - 1, step);
    }
  }

  /** The five-beam spread main fires: exactly -50, -25, 0, 25 and 50. */
  lemma FiveWaySpread()
    ensures Angles(SpreadCount) == Ok([-50, -25, 0, 25, 50])
  {
    assert FloorDiv(100, 4) == 25;
    assert Angles(SpreadCount) == Ok(Range(-50, 51, 25));
    assert Range(75, 51, 25) == [];
    assert Range(50, 51, 25) == [50];
    assert Range(25, 51, 25) == [25, 50];
    assert Range(0, 51, 25) == [0, 25, 50];
    assert Range(-25, 51, 25) == [-25, 0, 25, 50];
    assert Range(-50, 51, 25) == [-50, -25, 0, 25, 50];
  }

  /** The count can exceed the request: 35 beams asked for give step 2 and 51 angles. */
  lemma SpreadCanOvershoot()
    ensures Angles(35).Ok? && |Angles(35).value| == 51
  {
    SpreadShape(35);
    assert 100 / 34 == 2;
  }
}

=== FILE: world.dfy ===
/** The state main keeps between frames, and the invariants that hold of it. */
module World {
  import opened Geometry
  import opened Player
  import opened Invaders
  import opened Projectiles
  import opened Effects

  /** Everything main keeps: the bird, the score, the sprite groups (in
      insertion order) and the frame counter tmr. */
  datatype State = State(
    bird: Bird,
    score: nat,
    beams: seq<Beam>,
    bombs: seq<Bomb>,
    enemies: seq<Enemy>,
    explosions: seq<Explosion>,
    gravities: seq<Gravity>,
    shields: seq<Shield>,
    tick: nat)

  /** The hyper counter: at most 500 while hyper, and 0 (never used) or -1
      (just expired) while normal. */
  predicate HyperOk(b: Bird) {
    && (b.mode == Hyper ==> 0 <= b.hyperLife <= HyperFrames)
    && (b.mode == Normal ==> -1 <= b.hyperLife <= 0)
  }

  /** What holds at every point of a frame: the bird faces a compass
      direction and is inside the window, at most one shield exists, every
      counter is within the range its creator and its update allow, and every
      enemy keeps its descent invariant. */
  predicate Core(s: State) {
    && s.bird.facing in Compass
    && InBounds(s.bird.rect)
    && HyperOk(s.bird)
    && |s.shields| <= 1
    && (forall sh :: sh in s.shields ==> 0 <= sh.life <= ShieldLife)
    && (forall g :: g in s.gravities ==> 1 <= g.life <= GravityLife)
    && (forall x :: x in s.explosions ==> 0 <= x.life <= LongBlast)
    && (forall e :: e in s.enemies ==> Sane(e))
  }

  /** Between frames, additionally, every beam and bomb is inside the window:
      the update that ends a frame kills those that left it. */
  predicate Settled(s: State) {
    && Core(s)
    && (forall b :: b in s.beams ==> InBounds(b.rect))
    && (forall b :: b in s.bombs ==> InBounds(b.rect))
  }

  /** The state before the first frame: a bird of the given size centred at
      (900, 400) facing right, score 0, no other sprite, tmr = 0. */
  function Start(width: nat, height: nat): (s: State)
    requires width <= 400 && height <= 500
    ensures Settled(s) && s.score == 0 && s.tick == 0
    ensures s.bird.rect.Center() == Vec(900, 400) && s.bird.facing == Vec(1, 0) && s.bird.mode == Normal
  {
    var bird := Bird(CenteredAt(Vec(900, 400), width, height), Vec(1, 0), Normal, 0);
    State(bird, 0, [], [], [], [], [], [], 0)
  }
}
